=== FILE: README.md ===
# Orderbook-Scraper core, modelled in Dafny

The scraper has four parts, and the model follows each of them.

1. **Discovery and batching.** It fetches the Deribit option instruments of one currency and cuts the contract names into batches of at most 50.
2. **Subscription.** For each batch it starts a worker. The worker opens a Kafka producer and a websocket. It subscribes to the `book.<contract>.100ms` channels of its batch with one JSON-RPC request. It then forwards every order-book message it reads to the Kafka topic `deribitOrderbook`.
3. **Publishing.** A failed send goes through a bounded retry loop. There are 5 attempts, with a sleep of 2·attempt seconds after each failure.
4. **Reconnection.** A read error leads, after a 5 second sleep, to a new worker for the same batch, unless the shared context has been cancelled.

Modules, one per concern of the source:

- `Kafka` (`kafka.dfy`) covers the topic, the send record, and the retry loop. `RetryProduce` is a recursive reference definition. `RetryAttempts` is the `for` loop as written, and `RetryProduceLoop` runs it and is proved equal to the reference.
- `Deribit` (`deribit.dfy`) covers the batch size and the channel naming rule with its inverse. It also has the subscription request record and the contract names of an instrument listing.
- `Subscriber` (`subscriber.dfy`) is the worker of `BatchSubscribeDeribitContracts` and `handleReconnection`, written as three mutually recursive functions: `Worker`, `ReadLoop` and `Reconnect`.
- `SubscriberTrace` (`subscriber_trace.dfy`) holds the properties of the worker's runs.
- `Scraper` (`scraper.dfy`) covers the batching loop of `main`, the discovery abort, and the final wait on the wait group.

### How the worker is modelled

The worker cannot decide its own outcomes, so an oracle `Env` supplies them. It has four parts:

- `setups`: one entry per worker instance, saying whether producer initialisation, the dial and the subscription write succeed;
- `ticks`: what the `select` at the top of the read loop sees, in order. A tick is a cancelled context, a read error, or a message;
- `sink`: Kafka's answer to each send, in order;
- `checks`: the answer of each `select` after a reconnection sleep, true when the context is found cancelled.

A worker produces a trace of `Action`s. The trace contains:

- opened and closed producers and connections, tagged with the reconnection depth (`frame`);
- subscription requests, received payloads and publish steps;
- sleeps, `wg.Add` and `wg.Done`.
- the observation of a cancelled context, tagged with where it was seen (`CancelSite`): the `select` at the top of the read loop, or the one after the reconnection sleep.

A run also ends with a status and a `Resources` value. That value holds the wait-group counter and the open connections and producers.

A run is a finite prefix of an execution. When an oracle runs out, the run stops with status `Pending`, naming the oracle it waits on. Nothing that would happen later appears in its trace: no deferred close and no `wg.Done`.

Termination is by the pair (ticks left, rank of the function). `Worker`, `ReadLoop` and `Reconnect` rank 2, 1 and 3. Every read consumes a tick. The step from `Reconnect` to a new `Worker` consumes none, but it goes to a lower rank.

### Behaviour of the code worth knowing

- **Nested connections.** `handleReconnection` is called from inside the failed worker (api/deribit.go:108), and it runs the new worker as a plain call (api/deribit.go:142). The failed worker's deferred `producer.Close()`, `conn.Close()` and `wg.Done()` (api/deribit.go:65, 73, 81) run only after that call returns. So after k reconnections, k + 1 connections and k + 1 producers for the same batch are open at once. `SubscriberTrace.NestedLeases` and `SubscriberTrace.OpenLeasesAfterReconnects` prove it.
- **Set-up failures do not reconnect.** A failed producer initialisation, dial or subscription write returns at once (api/deribit.go:69-72, 77-80, 93-96). Only a read error calls `handleReconnection` (api/deribit.go:105-110). See `SubscriberTrace.SetupFailureEndsWorker` and `SubscriberTrace.WorkerReconnects`.
- **Linear backoff.** The comment on `RetryProduceToKafka` (kafka/kafka_producer.go:37-38) speaks of exponential backoff. The sleep is linear: 2, 4, 6, 8 and 10 seconds, which is 30 seconds in total. That includes a sleep after the fifth and last failure.
- **No cancellation check during retries.** The context is checked only at the top of the read loop (api/deribit.go:100-103) and after the reconnection sleep (api/deribit.go:136-139). Nothing checks it after a retry sleep (kafka/kafka_producer.go:47).
- **The context is never cancelled while workers run.** `main` creates the context and calls `cancel` only from a `defer` (main.go:26-27). That deferred call runs after `wg.Wait` (main.go:38) has returned, which is after every worker chain has returned. So in the program as written no worker ever observes cancellation. The `Cancel` ticks and the true `checks` answers model the two `select` statements as written, for a context cancelled by any means.

## Model

| member | source | states |
|---|---|---|
| Kafka.RetryProduce | kafka/kafka_producer.go:39-50 | At most 5 sends, each using the next sink answer. Every send is the same record: topic `deribitOrderbook`, the unchanged payload. Sends and sleeps alternate: step 2j is the send of attempt j + 1, answered by sink answer j, and step 2j + 1 is the sleep of 2·(j+1) seconds after it. So every sleep follows a failed send, and the next attempt follows that sleep. It is delivered exactly when the last answer used is a success, on that attempt, with every earlier answer a failure. It gives up exactly when the first 5 answers all fail, having used exactly 5. Otherwise the sink ran out after fewer than 5 answers, all failures. |
| Kafka.RetryFromMeetsContract | kafka/kafka_producer.go:40-48 | From any attempt number a, the loop uses only the sink answers it needs. It stops at the first success or after attempt 5. Step 2j is the send of attempt a + j with sink answer j, and step 2j + 1 is the 2·(a + j) second sleep after that failed attempt. |
| Kafka.RetryStopsAtFirstSuccess | kafka/kafka_producer.go:40-45 | If k < 5 failures come before a success, there are exactly k + 1 sends. Delivery happens on attempt k + 1, after k·(k+1) seconds of sleep. |
| Kafka.RetryGivesUpAfterFive | kafka/kafka_producer.go:40-49 | If the first 5 sends fail, the loop gives up after exactly 5 sends. The sleeps are 2, 4, 6, 8 and 10 seconds, 30 seconds in total. |
| Kafka.RetryProduceLoop | kafka/kafka_producer.go:39-50 | The counted `for` loop with its early return computes the same steps, sends and outcome as the reference definition, and never sends more than 5 times. |
| Kafka.RetryAttempts | kafka/kafka_producer.go:40-48 | The counted `for` loop from attempt 1 computes exactly the retry sequence of `RetryFrom`, and makes at most 5 sends. |
| Kafka.ProduceInjective | kafka/kafka_producer.go:29-35 | A send publishes to the topic `deribitOrderbook` with the payload as its value, unchanged. So two sends carry the same record exactly when they carry the same payload. |
| Deribit.OrderBookChannels | api/deribit.go:124-130 | One channel per contract, in contract order. Channel i is `book.` + contract i + `.100ms`. |
| Deribit.ChannelName | api/deribit.go:127 | The channel of a contract is `book.` + contract + `.100ms`, and stripping that prefix and suffix from it gives back the contract. |
| Deribit.ChannelNameOfContract | api/deribit.go:127 | Every name with the order-book shape is the channel of the contract that ContractOf reads from it. |
| Deribit.ChannelNameInjective | api/deribit.go:127 | Two contracts have the same channel name if and only if they are equal. |
| Deribit.ChannelsRoundTrip | api/deribit.go:124-130 | Reading a batch's channel list back gives exactly the batch. |
| Deribit.OrderBookChannelsInjective | api/deribit.go:124-130 | Two batches have the same channel list if and only if they are equal. |
| Deribit.SubscribeRequest | api/deribit.go:84-91 | The request is JSON-RPC `2.0`, id 1, method `public/subscribe`. Its channels decode to exactly the batch's contracts, one channel per contract. |
| Deribit.ContractNames | api/deribit.go:54-58 | One contract name per listed instrument, in listing order. |
| Subscriber.Forward | api/deribit.go:112-118 | The first send uses the message unchanged and the first sink answer. If the sink accepts it, that send is the only step: no retry and no sleep. Otherwise step i is step i − 1 of the retry loop on the remaining answers, from attempt 1: its sends and its 2·attempt second sleeps, each sleep after a failed send. The number of sleeps is one per failed retry send: the number of sends minus 2 when the last send succeeded, minus 1 otherwise. So there is no sleep after a successful send, and the 10-second sleep after the sixth failed send is there. At most 6 sends are made, and exactly the answers used are the flags of the sends. Forwarding ends at the first success or after the sixth send and its sleep. It is incomplete only if the sink stopped answering after failures alone. |
| Subscriber.Worker | api/deribit.go:64-121 | A worker chain that has not returned is waiting on an oracle with no answer left. That oracle is the set-up outcome, the read loop's `select` and read, the sink's answer to a send, or the check after a reconnection sleep. |
| Subscriber.ReadLoop | api/deribit.go:98-120 | The same for the read loop. It waits on the read oracle at the top of the loop, or on the sink when a message's forwarding is cut short. |
| Subscriber.Reconnect | api/deribit.go:133-144 | The same for `handleReconnection`. It waits on the check oracle right after its sleep, or on whatever the new worker waits on. |
| SubscriberTrace.WorkerConsumes | api/deribit.go:64-121 | A worker chain takes the answers of each oracle part in order and none twice: what it leaves is a suffix of each part. Its trace shows exactly the answers it took: the received messages, read errors and cancellations at the top of a read loop are the ticks used, in order. The ok flags of its sends are the sink answers used, in order. Its wg.Add calls and its cancellations after a reconnection sleep are the check answers used (false and true), in order. |
| SubscriberTrace.ReadLoopConsumes | api/deribit.go:98-120 | The same for the read loop: each read takes the next tick and shows it in the trace, and each send takes the next sink answer and carries it as its ok flag. A read loop given any tick takes at least one. |
| SubscriberTrace.ReconnectConsumes | api/deribit.go:133-144 | The same for `handleReconnection`: its check takes the next check answer. A live answer shows as `wg.Add`, a cancelled one as the cancellation observed after the sleep, so it never proceeds after a cancelled answer. |
| SubscriberTrace.WorkerEnds | api/deribit.go:64-121 | A worker chain returns for a reason exactly when the last answer it used of the deciding oracle part says so. It returns with a failed producer initialisation, dial or subscription write exactly when its last set-up answer is that failure. It returns cancelled at a read loop's top exactly when its last tick is a cancellation. It returns cancelled after a reconnection sleep exactly when its last check answer is "cancelled". |
| SubscriberTrace.ReadLoopEnds | api/deribit.go:98-120 | The same for the read loop. It returns cancelled at its top exactly when the last tick it used is a cancellation, so reading a message or a read error never by itself ends it. |
| SubscriberTrace.ReconnectEnds | api/deribit.go:133-144 | The same for `handleReconnection`. It ends cancelled exactly when its last check answer used is "cancelled", and otherwise as the new worker does. |
| SubscriberTrace.WorkerBalanced | api/deribit.go:64-121 | A returned worker chain has made exactly one net `wg.Done` and closed everything it opened. While it runs it has closed nothing. Its wait-group share is one plus the number of its `wg.Add` calls, and its open connections and producers are exactly those it opened. |
| SubscriberTrace.ReadLoopBalanced | api/deribit.go:98-120 | The same balance for the read loop, with net zero `wg.Done`: any reconnection's `wg.Add` is matched by the nested worker's `wg.Done`. |
| SubscriberTrace.ReconnectBalanced | api/deribit.go:133-144 | `handleReconnection` nets zero on the wait group: its `wg.Add(1)` pairs with the recursive worker's `wg.Done`. |
| SubscriberTrace.WorkerSubscribes | api/deribit.go:84-96 | Every connection a worker chain opens is followed at once by one subscription request naming the channels of that chain's batch. A request is written nowhere else: each one directly follows a connection's opening. |
| SubscriberTrace.ReadLoopSubscribes | api/deribit.go:99-110 | The same for the read loop: any connection opened after a read error is followed at once by its one request for the same batch. |
| SubscriberTrace.ReconnectSubscribes | api/deribit.go:140-143 | The reconnected worker re-subscribes the same contract slice, right after each connection it opens. |
| SubscriberTrace.WorkerReconnects | api/deribit.go:64-121 | The trace is accepted by the reconnection automaton `Recover`. A read failure is followed at once by the 5-second sleep. The sleep is followed by `wg.Add` or by the cancellation observed after it. `wg.Add` is followed by the new worker's first act. None of the three happens elsewhere. A finite run stops inside a reconnection only while waiting on the check or on the new worker's set-up. By count, each read failure has one sleep, and one `wg.Add` unless the check found the context cancelled or has not answered. Set-up failures trigger no reconnection. |
| SubscriberTrace.ReadLoopReconnects | api/deribit.go:104-110 | The same for the read loop: every read error leads at once to one `handleReconnection`, in that order. |
| SubscriberTrace.ReconnectReconnects | api/deribit.go:133-144 | `handleReconnection` sleeps 5 seconds first. Then it observes cancellation and stops, or makes one `wg.Add` followed by the new worker, or the run ends waiting on the check. |
| SubscriberTrace.RecoveryInOrder | api/deribit.go:104-143 | On a trace the reconnection automaton accepts, position by position: a read failure is followed by the 5-second sleep, the sleep by `wg.Add` or the cancellation after it, and `wg.Add` by a worker's first act. Each sleep is preceded by a read failure, and each `wg.Add` and each cancellation after a sleep by a sleep. |
| SubscriberTrace.WorkerRecoversInOrder | api/deribit.go:64-144 | A worker chain's trace has those positional facts. A run never ends right after a read failure. It ends right after the sleep only while waiting on the check, and right after `wg.Add` only while waiting on the new worker's set-up. |
| SubscriberTrace.WorkerStopsOnCancel | api/deribit.go:98-103 | After cancellation is observed, only the deferred closes and `wg.Done` follow: no dial, subscription, read or send. A chain ends cancelled at a read loop's top exactly when its trace holds that observation. It ends cancelled after a reconnection sleep exactly when its trace holds that one. |
| SubscriberTrace.ReadLoopStopsOnCancel | api/deribit.go:99-110 | The read loop observes cancellation only at its top, then returns at once. It ends as cancelled if and only if it observed it. |
| SubscriberTrace.ReconnectStopsOnCancel | api/deribit.go:135-139 | Cancellation seen after the reconnection sleep ends the chain with no new worker. The chain ends cancelled after a sleep if and only if it observed that. |
| SubscriberTrace.WorkerForwards | api/deribit.go:99-118 | A worker chain uses a prefix of the read oracle, and receives exactly the messages in that prefix, once each and in order. Its trace follows the forwarding discipline `Next`. A received message gets its first send at once. If that send fails, the retry loop's first send follows at once with no sleep. Each failed retry send, attempt k, is followed by exactly one sleep of 2·k seconds. Only that message's sends, publishing it unchanged to the topic, and those sleeps follow. The sends stop at the first success, or at the 6th send and its sleep. Only after that is anything read again. Nothing is sent and nobody sleeps between messages. The chain ends with the last message settled, unless it is waiting on the sink with its next send due. A chain whose last tick used was a message has not returned: it waits on the sink or reads again. |
| SubscriberTrace.ReadLoopForwards | api/deribit.go:99-119 | The same for the read loop. In particular the loop goes on after a settled message: if the last tick it used was a message, it waits on the sink or on the next read. |
| SubscriberTrace.MessageForwards | api/deribit.go:112-118 | One message is received, then sent until the sink accepts it or 6 sends have failed, before the next read. If the sink runs out first, the run waits on the sink. |
| SubscriberTrace.RetryReplay | kafka/kafka_producer.go:39-50 | After `a` failed sends of a message, the retry loop from attempt `a` keeps the forwarding discipline `Next`. It settles the message on the first accepted send, or after the sleep that follows the last attempt. If the sink stops answering, it stops with the next send due and never with a sleep due. |
| SubscriberTrace.ReconnectForwards | api/deribit.go:133-144 | Reconnection adds no receive and no send of its own, and leaves forwarding settled. |
| SubscriberTrace.WorkerSendsWhatItReads | api/deribit.go:99-118 | In a worker chain's trace, every received message is immediately followed by a send of that message, unless the trace ends there. Every read (message, read error or cancellation) happens only when the previous message is settled, that is after its accepted send or after the sleep following its 6th failed send. A publisher sleep comes only right after a failed send that was not the message's first (the one right after the read). Every such failed send is followed at once by its sleep. |
| SubscriberTrace.SetupFailureEndsWorker | api/deribit.go:67-96 | If producer initialisation, the dial or the subscription write fails, the worker returns with that reason. It receives, publishes, reads, and reconnects nothing. It uses no tick, no sink answer and no check answer, and makes its one `wg.Done`. |
| SubscriberTrace.NestedLeases | api/deribit.go:65-142 | After k read errors, each followed by a reconnection whose check finds the context not cancelled, frames `frame` to `frame + k` all hold an open connection and producer. The wait group is up by k, and the chain is still running. |
| SubscriberTrace.OpenLeasesAfterReconnects | api/deribit.go:65-142 | For the worker `main` starts, k reconnections mean k + 1 open connections and k + 1 open producers at once, and k + 1 outstanding `wg.Done` calls. |
| Scraper.Batches | main.go:30-37 | Every batch is non-empty and holds at most 50 contracts. Every batch except the last holds exactly 50. |
| Scraper.BatchesConcat | main.go:30-36 | The batches, laid end to end in launch order, give back the contract list exactly. |
| Scraper.BatchCount | main.go:30 | There are ⌈N/50⌉ batches, so none for an empty contract list. |
| Scraper.BatchOffsets | main.go:30-34 | Batch i is the slice from 50·i to min(50·i + 50, N). The start offsets are 0, 50, 100, …, and every start lies inside the list. |
| Scraper.LastBatchSize | main.go:31-34 | The last batch holds N − 50·⌊(N−1)/50⌋ contracts. |
| Scraper.LaunchBatches | main.go:29-37 | The loop as written starts exactly the batches of `Batches`, in order, each being the slice at offset 50·k. It makes exactly one `wg.Add` per started batch. |
| Scraper.Main | main.go:17-37 | A discovery error, and only that, ends the program before any worker starts, carrying the error. Otherwise batch i is the slice of the listed contract names from 50·i to min(50·i + 50, N). Every batch but the last holds exactly 50, every batch holds 1 to 50, and together they give back the names in order. Run i is the worker for batch i, as instance 0 holding the one `wg.Add` made for it, driven by its own oracle. |
| Scraper.WaitReturnsWhenAllExited | main.go:35-38 | At the point where every batch's chain has returned or waits on an oracle, the wait-group counter is not negative. It is zero, so `wg.Wait` returns, exactly when every batch's worker chain, reconnections included, has returned. |

## Left out

- HTTP and JSON in `GetAllDeribitOptionContracts`. The request and the decoding are not modelled. Discovery is an oracle (`Scraper.Discovery`) that gives the decoded listing or an error. The extraction loop that follows is modelled (`Deribit.ContractNames`).
- Websocket I/O. Dialing, reading and writing with gorilla/websocket are oracle outcomes, and `Request` stays a record. The byte-level JSON serialisation is not modelled. That includes the Go detail that a nil channel slice would encode as `null`; batches are never empty, so it cannot arise.
- `InitKafkaProducer` and the sarama configuration. Their success or failure is an oracle outcome, and the broker address is not modelled.
- Logging and flag parsing. `log` output and the `-currency` flag have no effect on the modelled behaviour. The fatal log on a discovery error is modelled as the `Aborted` outcome.
- Time. Every `time.Sleep` is recorded as a duration in whole seconds. No clock is modelled.
- Concurrency. The goroutines of different batches run in parallel, but each batch's worker chain is modelled on its own, with its own oracle. There is no interleaving across batches.
- Scraper.Main: the wait group is a counter per batch, summed by `WaitCount`. Blocking in `wg.Wait` is modelled only as "the counter is zero", and the shared counter's history across goroutines is not modelled.
- Finite runs: a worker run stops with `Pending`, naming the oracle, when that oracle is exhausted. Deferred calls of a run that has not ended are therefore never in its trace, and properties are stated about such finite prefixes. An infinite execution is not modelled.
- WorkerConsumes: the trace projection `Shown` covers the tick, sink and check answers. The set-up answers are tied to the run only through how it ends (`WorkerEnds`) and through the worker's first acts, not answer for answer, because a successful set-up shows as several actions rather than one.

=== FILE: deribit.dfy ===
/** Model of the pure parts of the Deribit client: the batch size, the order
    book channel naming rule, the JSON-RPC subscription request record, and
    the extraction of contract names from the instrument listing. */
module Deribit {

  datatype Option<T> = None | Some(value: T)

  /** Largest number of contracts subscribed on one websocket. */
  const BatchSize: nat := 50

  /** Every order-book channel is `ChannelPrefix + contract + ChannelSuffix`. */
  const ChannelPrefix: string := "book."
  const ChannelSuffix: string := ".100ms"

  /** The contract a channel name was built from, or None when the name does
      not have the order-book shape. */
  function ContractOf(channel: string): Option<string>
  {
    if |ChannelPrefix| + |ChannelSuffix| <= |channel|
       && channel[..|ChannelPrefix|] == ChannelPrefix
       && channel[|channel| - |ChannelSuffix|..] == ChannelSuffix
    then Some(channel[|ChannelPrefix|..|channel| - |ChannelSuffix|])
    else None
  }

  /** The order-book channel of one contract, at the 100 ms update rate.
      Reading it back gives the contract it was built from. */
  function ChannelName(contract: string): (ch: string)
    ensures ContractOf(ch) == Some(contract)
  {
    var ch := ChannelPrefix + contract + ChannelSuffix;
    assert ch[..|ChannelPrefix|] == ChannelPrefix;
    assert ch[|ch| - |ChannelSuffix|..] == ChannelSuffix;
    assert ch[|ChannelPrefix|..|ch| - |ChannelSuffix|] == contract;
    ch
  }

  /** Every name ContractOf accepts is the channel of the contract it returns. */
  lemma ChannelNameOfContract(channel: string)
    requires ContractOf(channel).Some?
    ensures channel == ChannelName(ContractOf(channel).value)
  {
    var p, s := |ChannelPrefix|, |ChannelSuffix|;
    assert channel == channel[..p] + channel[p..|channel| - s] + channel[|channel| - s..];
  }

  /** Channel naming is injective: the fixed prefix and suffix leave the
      contract recoverable, so two contracts share a channel only if equal. */
  lemma ChannelNameInjective(a: string, b: string)
    ensures ChannelName(a) == ChannelName(b) <==> a == b
  {
    assert ContractOf(ChannelName(a)) == Some(a);
  }

  /** createOrderBookChannels: one channel per contract, in contract order,
      built by appending as the source loop does. */
  function OrderBookChannels(contracts: seq<string>): (channels: seq<string>)
    ensures |channels| == |contracts|
    ensures forall i :: 0 <= i < |contracts| ==> channels[i] == ChannelName(contracts[i])
  {
    if |contracts| == 0 then []
    else OrderBookChannels(contracts[..|contracts| - 1]) + [ChannelName(contracts[|contracts| - 1])]
  }

  /** The contracts a list of channel names subscribes to, or None when one of
      the names is not an order-book channel. */
  function ContractsOf(channels: seq<string>): Option<seq<string>>
  {
    if |channels| == 0 then Some([])
    else
      match (ContractOf(channels[0]), ContractsOf(channels[1..]))
      case (Some(c), Some(cs)) => Some([c] + cs)
      case _ => None
  }

  /** Decoding the channel list of a batch gives back the batch. */
  lemma {:induction false} ChannelsRoundTrip(contracts: seq<string>)
    ensures ContractsOf(OrderBookChannels(contracts)) == Some(contracts)
  {
    var chs := OrderBookChannels(contracts);
    if |contracts| > 0 {
      ChannelsRoundTrip(contracts[1..]);
      assert chs[1..] == OrderBookChannels(contracts[1..]);
      assert contracts == [contracts[0]] + contracts[1..];
    }
  }

  /** Two batches subscribe to the same channel list only if they are the same
      batch. */
  lemma OrderBookChannelsInjective(a: seq<string>, b: seq<string>)
    ensures OrderBookChannels(a) == OrderBookChannels(b) <==> a == b
  {
    ChannelsRoundTrip(a);
    ChannelsRoundTrip(b);
  }

  /** Parameters of the subscription call. */
  datatype Params = Params(channels: seq<string>)

  /** A JSON-RPC request record, before serialisation. */
  datatype Request = Request(jsonrpc: string, id: int, methodName: string, params: Params)

  /** The one subscription request a worker writes on a fresh connection:
      JSON-RPC 2.0, id 1, method public/subscribe, naming exactly the
      order-book channels of the batch. */
  function SubscribeRequest(contracts: seq<string>): (req: Request)
    ensures req.jsonrpc == "2.0" && req.id == 1 && req.methodName == "public/subscribe"
    ensures ContractsOf(req.params.channels) == Some(contracts)
    ensures |req.params.channels| == |contracts|
  {
    ChannelsRoundTrip(contracts);
    Request("2.0", 1, "public/subscribe", Params(OrderBookChannels(contracts)))
  }

  /** One entry of the instrument listing. */
  datatype Instrument = Instrument(instrumentName: string)

  /** The contract names of a decoded instrument listing, in listing order. */
  function ContractNames(instruments: seq<Instrument>): (names: seq<string>)
    ensures |names| == |instruments|
    ensures forall i :: 0 <= i < |instruments| ==> names[i] == instruments[i].instrumentName
  {
    if |instruments| == 0 then []
    else ContractNames(instruments[..|instruments| - 1]) + [instruments[|instruments| - 1].instrumentName]
  }
}

=== FILE: kafka.dfy ===
/** Model of the Kafka side of the scraper: the record a send carries, and the
    bounded retry loop that re-sends one payload after the sink refused it.
    The sink itself is an oracle: a sequence of answers, one per send, in the
    order the sends happen. */
module Kafka {

  /** Topic every order-book update is published to. */
  const Topic: string := "deribitOrderbook"

  /** Largest number of sends one retry sequence makes. */
  const MaxRetry: nat := 5

  /** After failed attempt `a` the publisher sleeps `a * BackoffUnit` seconds. */
  const BackoffUnit: nat := 2

  newtype byte = x: int | 0 <= x < 256

  /** An opaque order-book update, exactly as read from the websocket. */
  type Bytes = seq<byte>

  /** A message handed to the sink. */
  datatype Record = Record(topic: string, value: Bytes)

  /** The record a single send publishes for payload `msg`. */
  function Produce(msg: Bytes): Record
  {
    Record(Topic, msg)
  }

  /** ProduceToKafka hands the payload over unchanged: two sends carry the
      same record exactly when they carry the same payload. */
  lemma ProduceInjective(a: Bytes, b: Bytes)
    ensures Produce(a) == Produce(b) <==> a == b
    ensures Produce(a).topic == Topic && Produce(a).value == a
  {
  }

  /** One observable effect of the publisher: a send together with the sink's
      answer, or a sleep of whole seconds. */
  datatype Step = Send(rec: Record, ok: bool) | Sleep(seconds: nat)

  /** How a retry sequence ended: delivered on attempt `attempt`, abandoned
      after the last allowed attempt, or cut off because the sink oracle had
      no further answer (the modelled run ends there). */
  datatype RetryStatus = Delivered(attempt: nat) | GaveUp | Unanswered

  /** A retry sequence: its effects, how many sink answers it consumed, and how
      it ended. */
  datatype Retry = Retry(steps: seq<Step>, used: nat, status: RetryStatus)

  /** The sink's answers to the sends among `steps`, in order. */
  function Outcomes(steps: seq<Step>): seq<bool>
  {
    if |steps| == 0 then []
    else (if steps[0].Send? then [steps[0].ok] else []) + Outcomes(steps[1..])
  }

  /** The durations of the sleeps among `steps`, in order. */
  function Delays(steps: seq<Step>): seq<nat>
  {
    if |steps| == 0 then []
    else (if steps[0].Sleep? then [steps[0].seconds] else []) + Delays(steps[1..])
  }

  /** Every send among `steps` publishes `rec`. */
  predicate SendsOnly(steps: seq<Step>, rec: Record)
  {
    forall i :: 0 <= i < |steps| && steps[i].Send? ==> steps[i].rec == rec
  }

  /** Every answer in `answers` is a failure. */
  predicate AllFail(answers: seq<bool>)
  {
    forall i :: 0 <= i < |answers| ==> !answers[i]
  }

  /** Sum of a sequence of durations. */
  function Total(xs: seq<nat>): nat
  {
    if |xs| == 0 then 0 else Total(xs[..|xs| - 1]) + xs[|xs| - 1]
  }

  /** Outcomes and Delays distribute over concatenation. */
  lemma {:induction false} StepsConcat(a: seq<Step>, b: seq<Step>)
    ensures Outcomes(a + b) == Outcomes(a) + Outcomes(b)
    ensures Delays(a + b) == Delays(a) + Delays(b)
  {
    if |a| > 0 {
      assert a + b == [a[0]] + (a[1..] + b);
      assert (a + b)[1..] == a[1..] + b;
      StepsConcat(a[1..], b);
    } else {
      assert a + b == b;
    }
  }

  /** Step `i` of the retry loop started at attempt `attempt`: sends and
      sleeps alternate, the send of attempt `attempt + i / 2` getting sink
      answer `i / 2` and being followed by that attempt's sleep. */
  function StepAt(msg: Bytes, sink: seq<bool>, attempt: nat, i: nat): Step
    requires i / 2 < |sink|
  {
    if i % 2 == 0 then Send(Produce(msg), sink[i / 2]) else Sleep(BackoffUnit * (attempt + i / 2))
  }

  /** What the retry loop promises when it starts at attempt `attempt`: it
      consumes one sink answer per send and no more than the attempts left,
      every send carries the same record, the sleep after failed attempt `a`
      lasts `a * BackoffUnit` seconds, and it ends exactly one of three ways --
      on the first success, after the last allowed failure, or when the sink
      oracle runs out while every answer so far was a failure. */
  ghost predicate RetryContract(msg: Bytes, sink: seq<bool>, attempt: nat, r: Retry)
  {
    && r.used <= |sink| && attempt + r.used <= MaxRetry + 1
    && Outcomes(r.steps) == sink[..r.used]
    && SendsOnly(r.steps, Produce(msg))
    && (forall i :: 0 <= i < |r.steps| ==> i / 2 < r.used && r.steps[i] == StepAt(msg, sink, attempt, i))
    && (forall i :: 0 <= i < |Delays(r.steps)| ==> Delays(r.steps)[i] == BackoffUnit * (attempt + i))
    && (r.status.Delivered? ==>
          && 0 < r.used && sink[r.used - 1] && AllFail(sink[..r.used - 1])
          && r.status.attempt == attempt + r.used - 1
          && |Delays(r.steps)| == r.used - 1)
    && (r.status.GaveUp? ==>
          attempt + r.used == MaxRetry + 1 && AllFail(sink[..r.used]) && |Delays(r.steps)| == r.used)
    && (r.status.Unanswered? ==>
          r.used == |sink| && attempt + r.used < MaxRetry + 1 && AllFail(sink) && |Delays(r.steps)| == r.used)
  }

  /** Placing a failed attempt and its sleep in front of the steps of the
      next attempts shifts every step by two places. */
  lemma StepAtShift(msg: Bytes, sink: seq<bool>, attempt: nat, steps: seq<Step>, used: nat)
    requires 0 < |sink| && !sink[0] && used < |sink|
    requires forall i :: 0 <= i < |steps| ==> i / 2 < used && steps[i] == StepAt(msg, sink[1..], attempt + 1, i)
    ensures var all := [Send(Produce(msg), false), Sleep(BackoffUnit * attempt)] + steps;
            && (forall i :: 0 <= i < |all| ==> i / 2 < 1 + used && all[i] == StepAt(msg, sink, attempt, i))
            && SendsOnly(all, Produce(msg))
  {
    var all := [Send(Produce(msg), false), Sleep(BackoffUnit * attempt)] + steps;
    forall i | 0 <= i < |all|
      ensures i / 2 < 1 + used && all[i] == StepAt(msg, sink, attempt, i)
    {
      if 2 <= i {
        assert all[i] == steps[i - 2];
        assert (i - 2) / 2 == i / 2 - 1 && (i - 2) % 2 == i % 2;
        assert sink[1..][i / 2 - 1] == sink[i / 2];
      }
    }
  }

  /** A failed attempt followed by a retry sequence that keeps the contract
      from the next attempt on keeps the contract from this attempt. */
  lemma RetryContractStep(msg: Bytes, sink: seq<bool>, attempt: nat, rest: Retry)
    requires 1 <= attempt <= MaxRetry && 0 < |sink| && !sink[0]
    requires RetryContract(msg, sink[1..], attempt + 1, rest)
    ensures RetryContract(msg, sink, attempt,
                          Retry([Send(Produce(msg), false), Sleep(BackoffUnit * attempt)] + rest.steps,
                                1 + rest.used, rest.status))
  {
    var head := [Send(Produce(msg), false), Sleep(BackoffUnit * attempt)];
    var r := Retry(head + rest.steps, 1 + rest.used, rest.status);
    StepsConcat(head, rest.steps);
    StepAtShift(msg, sink, attempt, rest.steps, rest.used);
    assert Outcomes(head) == [false];
    assert Delays(head) == [BackoffUnit * attempt];
    assert sink[..r.used] == [false] + sink[1..][..rest.used];
    if rest.status.Delivered? {
      assert sink[..r.used - 1] == [false] + sink[1..][..rest.used - 1];
    }
  }

  /** The retry loop from attempt number `attempt` on, answered by `sink`. */
  function RetryFrom(msg: Bytes, sink: seq<bool>, attempt: nat): Retry
    requires 1 <= attempt <= MaxRetry + 1
    decreases MaxRetry + 1 - attempt
  {
    if attempt > MaxRetry then
      Retry([], 0, GaveUp)
    else if |sink| == 0 then
      Retry([], 0, Unanswered)
    else if sink[0] then
      Retry([Send(Produce(msg), true)], 1, Delivered(attempt))
    else
      var rest := RetryFrom(msg, sink[1..], attempt + 1);
      Retry([Send(Produce(msg), false), Sleep(BackoffUnit * attempt)] + rest.steps, 1 + rest.used, rest.status)
  }

  /** The retry loop keeps its contract from every starting attempt. */
  lemma {:induction false} RetryFromMeetsContract(msg: Bytes, sink: seq<bool>, attempt: nat)
    requires 1 <= attempt <= MaxRetry + 1
    decreases MaxRetry + 1 - attempt
    ensures RetryContract(msg, sink, attempt, RetryFrom(msg, sink, attempt))
  {
    if attempt <= MaxRetry && 0 < |sink| && !sink[0] {
      RetryFromMeetsContract(msg, sink[1..], attempt + 1);
      RetryContractStep(msg, sink, attempt, RetryFrom(msg, sink[1..], attempt + 1));
    }
  }

  /** RetryProduceToKafka: at most MaxRetry sends of the same record, stopping
      at the first one the sink accepts, with a linear back-off after each
      failed attempt. */
  function RetryProduce(msg: Bytes, sink: seq<bool>): (r: Retry)
    ensures r.used == |Outcomes(r.steps)| <= MaxRetry
    ensures r.used <= |sink|
    ensures Outcomes(r.steps) == sink[..r.used]
    ensures SendsOnly(r.steps, Produce(msg))
    ensures r.status.Delivered? <==> 0 < r.used && sink[r.used - 1]
    ensures r.status.Delivered? ==> r.status.attempt == r.used && AllFail(sink[..r.used - 1])
    ensures r.status.GaveUp? <==> MaxRetry <= |sink| && AllFail(sink[..MaxRetry])
    ensures r.status.GaveUp? ==> r.used == MaxRetry
    ensures r.status.Unanswered? ==> r.used == |sink| < MaxRetry && AllFail(sink)
    ensures |Delays(r.steps)| == if r.status.Delivered? then r.used - 1 else r.used
    ensures forall i :: 0 <= i < |Delays(r.steps)| ==> Delays(r.steps)[i] == BackoffUnit * (i + 1)
    ensures forall i :: 0 <= i < |r.steps| ==> i / 2 < r.used && r.steps[i] == StepAt(msg, sink, 1, i)
  {
    var r := RetryFrom(msg, sink, 1);
    RetryFromMeetsContract(msg, sink, 1);
    assert r.status.Delivered? <==> 0 < r.used && sink[r.used - 1] by {
      if r.status.GaveUp? && 0 < r.used {
        assert sink[r.used - 1] == sink[..r.used][r.used - 1];
      }
    }
    assert r.status.GaveUp? <==> MaxRetry <= |sink| && AllFail(sink[..MaxRetry]) by {
      if r.status.Delivered? && MaxRetry <= |sink| {
        assert sink[r.used - 1] == sink[..MaxRetry][r.used - 1];
      }
      if r.status.GaveUp? {
        assert sink[..r.used] == sink[..MaxRetry];
      }
    }
    r
  }

  /** RetryProduce is the retry loop started at attempt 1. */
  lemma RetryProduceFromFirst(msg: Bytes, sink: seq<bool>)
    ensures RetryProduce(msg, sink) == RetryFrom(msg, sink, 1)
  {
  }

  /** The sum of the first `k` linear back-off delays is k * (k + 1) seconds. */
  lemma {:induction false} TotalLinear(xs: seq<nat>)
    requires forall i :: 0 <= i < |xs| ==> xs[i] == BackoffUnit * (i + 1)
    ensures Total(xs) == |xs| * (|xs| + 1)
  {
    if |xs| > 0 {
      TotalLinear(xs[..|xs| - 1]);
    }
  }

  /** After k failures and then a success (k < MaxRetry), exactly k + 1 sends
      happen, the last one succeeding, after k sleeps totalling k * (k + 1)
      seconds. */
  lemma RetryStopsAtFirstSuccess(msg: Bytes, sink: seq<bool>, k: nat)
    requires k < MaxRetry && k < |sink|
    requires AllFail(sink[..k]) && sink[k]
    ensures RetryProduce(msg, sink).used == k + 1
    ensures RetryProduce(msg, sink).status == Delivered(k + 1)
    ensures Total(Delays(RetryProduce(msg, sink).steps)) == k * (k + 1)
  {
    var r := RetryProduce(msg, sink);
    assert MaxRetry <= |sink| ==> sink[..MaxRetry][k];
    assert r.status.Delivered?;
    assert forall j :: 0 <= j < k ==> !sink[j] by {
      forall j | 0 <= j < k
        ensures !sink[j]
      {
        assert sink[..k][j] == sink[j];
      }
    }
    TotalLinear(Delays(r.steps));
  }

  /** A sink that refuses every send gets exactly MaxRetry sends; the publisher
      then gives up, having slept 2, 4, 6, 8 and 10 seconds, 30 in all. */
  lemma RetryGivesUpAfterFive(msg: Bytes, sink: seq<bool>)
    requires MaxRetry <= |sink| && AllFail(sink[..MaxRetry])
    ensures RetryProduce(msg, sink).status == GaveUp
    ensures RetryProduce(msg, sink).used == 5
    ensures Delays(RetryProduce(msg, sink).steps) == [2, 4, 6, 8, 10]
    ensures Total(Delays(RetryProduce(msg, sink).steps)) == 30
  {
    var r := RetryProduce(msg, sink);
    assert r.status.GaveUp?;
    TotalLinear(Delays(r.steps));
  }

  /** One failed attempt of the retry loop, unfolded. */
  lemma RetryFromFailure(msg: Bytes, sink: seq<bool>, attempt: nat)
    requires 1 <= attempt <= MaxRetry && 0 < |sink| && !sink[0]
    ensures var rest := RetryFrom(msg, sink[1..], attempt + 1);
            RetryFrom(msg, sink, attempt)
            == Retry([Send(Produce(msg), false), Sleep(BackoffUnit * attempt)] + rest.steps,
                     1 + rest.used, rest.status)
  {
  }

  /** The retry loop as written: attempts 1 to MaxRetry, each one sending the
      same record, returning on the first success and sleeping 2 * attempt
      seconds after each failure. It agrees with RetryProduce. */
  method RetryProduceLoop(msg: Bytes, sink: seq<bool>) returns (steps: seq<Step>, used: nat, status: RetryStatus)
    ensures Retry(steps, used, status) == RetryProduce(msg, sink)
    ensures used <= MaxRetry
  {
    steps, used, status := RetryAttempts(msg, sink);
    RetryProduceFromFirst(msg, sink);
  }

  /** The `for` loop of RetryProduceToKafka, attempt by attempt. */
  method RetryAttempts(msg: Bytes, sink: seq<bool>) returns (steps: seq<Step>, used: nat, status: RetryStatus)
    ensures Retry(steps, used, status) == RetryFrom(msg, sink, 1)
    ensures used <= MaxRetry
  {
    ghost var whole := RetryFrom(msg, sink, 1);
    steps := [];
    used := 0;
    var attempt := 1;
    while attempt <= MaxRetry
      invariant 1 <= attempt <= MaxRetry + 1
      invariant used == attempt - 1 <= |sink|
      invariant whole.steps == steps + RetryFrom(msg, sink[used..], attempt).steps
      invariant whole.used == used + RetryFrom(msg, sink[used..], attempt).used
      invariant whole.status == RetryFrom(msg, sink[used..], attempt).status
      decreases MaxRetry + 1 - attempt
    {
      if used == |sink| {
        status := Unanswered;
        assert steps + [] == steps;
        return;
      }
      var ok := sink[used];
      if ok {
        steps := steps + [Send(Produce(msg), true)];
        used := used + 1;
        status := Delivered(attempt);
        return;
      }
      RetryFromFailure(msg, sink[used..], attempt);
      assert sink[used..][1..] == sink[used + 1..];
      steps := steps + [Send(Produce(msg), false), Sleep(BackoffUnit * attempt)];
      used := used + 1;
      attempt := attempt + 1;
    }
    status := GaveUp;
    assert steps + [] == steps;
  }


}

=== FILE: scraper.dfy ===
/** Model of the program entry point: contract discovery, the split of the
    contract list into subscription batches of at most BatchSize contracts,
    one worker per batch, and the final wait on the wait group. */
module Scraper {
  import opened Deribit
  import opened Subscriber
  import opened SubscriberTrace

  function Min(a: int, b: int): int
  {
    if a < b then a else b
  }

  /** The batches laid end to end. */
  function Concat(bs: seq<seq<string>>): seq<string>
  {
    if |bs| == 0 then [] else bs[0] + Concat(bs[1..])
  }

  /** The batches the main loop cuts the contract list into: consecutive
      slices of BatchSize contracts, the last one holding the remainder. */
  function Batches(contracts: seq<string>): (bs: seq<seq<string>>)
    decreases |contracts|
    ensures forall i :: 0 <= i < |bs| ==> 0 < |bs[i]| <= BatchSize
    ensures forall i :: 0 <= i < |bs| - 1 ==> |bs[i]| == BatchSize
  {
    if |contracts| == 0 then []
    else
      var end := Min(BatchSize, |contracts|);
      var rest := Batches(contracts[end..]);
      assert ([contracts[..end]] + rest)[1..] == rest;
      [contracts[..end]] + rest
  }

  /** Laid end to end, the batches give back the contract list: every
      contract is subscribed, in exactly one batch, in listing order. */
  lemma {:induction false} BatchesConcat(contracts: seq<string>)
    ensures Concat(Batches(contracts)) == contracts
    decreases |contracts|
  {
    if |contracts| > 0 {
      var end := Min(BatchSize, |contracts|);
      BatchesConcat(contracts[end..]);
      var bs := Batches(contracts);
      assert bs[1..] == Batches(contracts[end..]);
      assert contracts == contracts[..end] + contracts[end..];
    }
  }

  /** There are ceil(N / BatchSize) batches. */
  lemma {:induction false} BatchCount(contracts: seq<string>)
    ensures |Batches(contracts)| == (|contracts| + BatchSize - 1) / BatchSize
    decreases |contracts|
  {
    if |contracts| > 0 {
      var end := Min(BatchSize, |contracts|);
      BatchCount(contracts[end..]);
    }
  }

  /** Batch i is exactly the slice the main loop takes in its i-th round:
      it starts at offset i * BatchSize and ends there plus BatchSize, or at
      the end of the list, whichever comes first. */
  lemma {:induction false} BatchOffsets(contracts: seq<string>, i: nat)
    requires i < |Batches(contracts)|
    ensures i * BatchSize < |contracts|
    ensures Batches(contracts)[i] == contracts[i * BatchSize .. Min(i * BatchSize + BatchSize, |contracts|)]
    decreases i
  {
    var end := Min(BatchSize, |contracts|);
    var rest := contracts[end..];
    if i > 0 {
      assert Batches(contracts)[i] == Batches(rest)[i - 1];
      BatchOffsets(rest, i - 1);
      var lo := (i - 1) * BatchSize;
      assert i * BatchSize == lo + BatchSize;
      assert |rest| > 0 && end == BatchSize;
      assert Min(lo + BatchSize, |rest|) + BatchSize == Min(i * BatchSize + BatchSize, |contracts|);
      assert rest[lo .. Min(lo + BatchSize, |rest|)]
          == contracts[i * BatchSize .. Min(i * BatchSize + BatchSize, |contracts|)];
    }
  }

  /** The last batch holds the remainder: N - BatchSize * ((N - 1) / BatchSize)
      contracts, which is BatchSize when N is a multiple of it. */
  lemma LastBatchSize(contracts: seq<string>)
    requires 0 < |contracts|
    ensures var bs := Batches(contracts);
            |bs[|bs| - 1]| == |contracts| - BatchSize * ((|contracts| - 1) / BatchSize)
  {
    var bs := Batches(contracts);
    var last := |bs| - 1;
    BatchOffsets(contracts, last);
    BatchCount(contracts);
    assert last == (|contracts| - 1) / BatchSize;
  }

  /** The batches from offset i on: the slice [i, i + BatchSize), clamped to
      the list, followed by the batches after it. */
  lemma BatchesFrom(contracts: seq<string>, i: nat)
    requires i < |contracts|
    ensures Batches(contracts[i..])
         == [contracts[i..Min(i + BatchSize, |contracts|)]] + Batches(contracts[Min(i + BatchSize, |contracts|)..])
  {
    var tail := contracts[i..];
    var end := Min(i + BatchSize, |contracts|);
    assert tail[..end - i] == contracts[i..end];
    assert tail[end - i..] == contracts[end..];
  }

  /** Every batch is the slice the main loop takes for it. */
  lemma BatchesAreSlices(contracts: seq<string>)
    ensures forall k :: 0 <= k < |Batches(contracts)| ==>
              k * BatchSize < |contracts|
              && Batches(contracts)[k] == contracts[k * BatchSize .. Min(k * BatchSize + BatchSize, |contracts|)]
  {
    forall k | 0 <= k < |Batches(contracts)|
      ensures k * BatchSize < |contracts|
      ensures Batches(contracts)[k] == contracts[k * BatchSize .. Min(k * BatchSize + BatchSize, |contracts|)]
    {
      BatchOffsets(contracts, k);
    }
  }

  /** One round of the main loop keeps `started` a prefix of the batches:
      what is still to come are the batches of the rest of the list. */
  lemma LaunchStep(contracts: seq<string>, started: seq<seq<string>>, i: nat)
    requires i < |contracts|
    requires started + Batches(contracts[i..]) == Batches(contracts)
    ensures var end := Min(i + BatchSize, |contracts|);
            (started + [contracts[i..end]]) + Batches(contracts[end..]) == Batches(contracts)
  {
    var end := Min(i + BatchSize, |contracts|);
    var slice, rest := [contracts[i..end]], Batches(contracts[end..]);
    BatchesFrom(contracts, i);
    assert (started + slice) + rest == started + (slice + rest);
  }

  /** The main loop: one wg.Add and one started worker per batch, in batch
      order. `started` lists the contract slices the workers were given. */
  method LaunchBatches(contracts: seq<string>) returns (started: seq<seq<string>>, wg: nat)
    ensures started == Batches(contracts)
    ensures wg == |started|
    ensures forall k :: 0 <= k < |started| ==> k * BatchSize < |contracts| && started[k] == contracts[k * BatchSize .. Min(k * BatchSize + BatchSize, |contracts|)]
  {
    started, wg := [], 0;
    var i := 0;
    ghost var from := 0;
    while i < |contracts|
      invariant 0 <= from <= |contracts| && from == Min(i, |contracts|)
      invariant started + Batches(contracts[from..]) == Batches(contracts)
      invariant wg == |started|
      decreases |contracts| - i
    {
      var end := i + BatchSize;
      if end > |contracts| {
        end := |contracts|;
      }
      LaunchStep(contracts, started, i);
      wg := wg + 1;
      started := started + [contracts[i..end]];
      i := i + BatchSize;
      from := end;
    }
    assert contracts[from..] == [];
    BatchesAreSlices(contracts);
  }

  /** What contract discovery answers: the decoded instrument listing, or an
      error from the HTTP request or the JSON decoding. */
  datatype Discovery = Listed(instruments: seq<Instrument>) | FetchFailed(error: string)

  /** How the program went: stopped at discovery, or the batches it started
      and the run of each batch's worker chain. */
  datatype Launch =
    | Aborted(error: string)
    | Launched(batches: seq<seq<string>>, runs: seq<Run>)

  /** The share of the wait group batch i's worker starts with: the one
      wg.Add the main loop made for it. */
  const Initial: Resources := Resources(1, {}, {})

  /** main: a discovery error ends the program before any subscription;
      otherwise batch i is the i-th slice of BatchSize contracts of the
      listing, and gets its own worker, instance 0 holding the one wg.Add
      made for it, driven by its own oracle `envOf(i)`. */
  function Main(discovery: Discovery, envOf: nat -> Env): (l: Launch)
    ensures discovery.FetchFailed? <==> l.Aborted?
    ensures l.Aborted? ==> l.error == discovery.error
    ensures l.Launched? ==>
              var names := ContractNames(discovery.instruments);
              && Concat(l.batches) == names
              && (forall i :: 0 <= i < |l.batches| ==> 0 < |l.batches[i]| <= BatchSize)
              && (forall i :: 0 <= i < |l.batches| - 1 ==> |l.batches[i]| == BatchSize)
              && (forall i :: 0 <= i < |l.batches| ==>
                    i * BatchSize < |names| && l.batches[i] == names[i * BatchSize .. Min(i * BatchSize + BatchSize, |names|)])
              && |l.runs| == |l.batches|
              && (forall i :: 0 <= i < |l.runs| ==> l.runs[i] == Worker(l.batches[i], envOf(i), 0, Initial))
  {
    match discovery
    case FetchFailed(error) => Aborted(error)
    case Listed(instruments) =>
      var bs := Batches(ContractNames(instruments));
      BatchesConcat(ContractNames(instruments));
      BatchesAreSlices(ContractNames(instruments));
      Launched(bs, seq(|bs|, i requires 0 <= i < |bs| => Worker(bs[i], envOf(i), 0, Initial)))
  }

  /** The wait group's counter: the sum of every batch's share. */
  function WaitCount(runs: seq<Run>): int
  {
    if |runs| == 0 then 0 else runs[0].res.wg + WaitCount(runs[1..])
  }

  /** Every share is 0 when its worker chain has returned and positive while
      it still runs. */
  lemma {:induction false} WaitCountShares(runs: seq<Run>)
    requires forall i :: 0 <= i < |runs| ==> if runs[i].status.Exited? then runs[i].res.wg == 0 else runs[i].res.wg > 0
    ensures WaitCount(runs) >= 0
    ensures WaitCount(runs) == 0 <==> forall i :: 0 <= i < |runs| ==> runs[i].status.Exited?
  {
    if |runs| > 0 {
      WaitCountShares(runs[1..]);
      assert forall i :: 1 <= i < |runs| ==> runs[i] == runs[1..][i - 1];
    }
  }

  /** wg.Wait in main returns exactly when every batch's worker chain,
      reconnections included, has returned. */
  lemma WaitReturnsWhenAllExited(discovery: Discovery, envOf: nat -> Env)
    requires discovery.Listed?
    ensures var l := Main(discovery, envOf);
            && WaitCount(l.runs) >= 0
            && (WaitCount(l.runs) == 0 <==> forall i :: 0 <= i < |l.runs| ==> l.runs[i].status.Exited?)
  {
    var l := Main(discovery, envOf);
    forall i | 0 <= i < |l.runs|
      ensures if l.runs[i].status.Exited? then l.runs[i].res.wg == 0 else l.runs[i].res.wg > 0
    {
      WorkerBalanced(l.batches[i], envOf(i), 0, Initial);
    }
    WaitCountShares(l.runs);
  }
}

=== FILE: subscriber.dfy ===
/** Model of one batch worker of the Deribit client and of its reconnection
    handler, as a sequential state machine.

    Everything the worker cannot decide itself comes from an oracle `Env`:
    - `setups`: for each worker instance, whether producer initialisation, the
      websocket dial and the subscription write succeed;
    - `ticks`: what the read loop observes, in order -- the shared context
      found cancelled at the top of the loop, a read error, or a message;
    - `sink`: the sink's answer to each send, in order;
    - `checks`: the answer of each context check after a reconnection sleep,
      true when the context is found cancelled.
    A run is a finite prefix of an execution: when an oracle has no next
    answer the run stops right there with status `Pending`, naming that
    oracle, and nothing that would happen later (the deferred closes,
    wg.Done) is in its trace. */
module Subscriber {
  import opened Kafka
  import opened Deribit

  /** Seconds handleReconnection sleeps before trying again. */
  const ReconnectDelay: nat := 5

  /** Most sends one message gets: the first send plus the retry loop's. */
  const MaxAttempts: nat := 1 + MaxRetry

  /** How the set-up of one worker instance goes. */
  datatype Setup = InitFails | DialFails | WriteFails | Ready

  /** One observation at the top of the read loop: the context found
      cancelled, a read error, or a message. */
  datatype Tick = Cancel | ReadError | Message(payload: Bytes)

  datatype Env = Env(setups: seq<Setup>, ticks: seq<Tick>, sink: seq<bool>, checks: seq<bool>)

  /** The four parts of the oracle. */
  datatype Oracle = SetupOracle | TickOracle | SinkOracle | CheckOracle

  /** `s` is what is left of `t` once a prefix of it has been used. */
  predicate Suffix<T(==)>(s: seq<T>, t: seq<T>)
  {
    |s| <= |t| && s == t[|t| - |s|..]
  }

  /** `rest` is `env` with a prefix of each oracle used: answers are taken
      in order, and none is read twice. */
  predicate Consumes(env: Env, rest: Env)
  {
    && Suffix(rest.setups, env.setups) && Suffix(rest.ticks, env.ticks)
    && Suffix(rest.sink, env.sink) && Suffix(rest.checks, env.checks)
  }

  /** Oracle `o` has no answer left in `env`. */
  predicate Exhausted(env: Env, o: Oracle)
  {
    match o
    case SetupOracle => |env.setups| == 0
    case TickOracle => |env.ticks| == 0
    case SinkOracle => |env.sink| == 0
    case CheckOracle => |env.checks| == 0
  }

  lemma SuffixTrans<T>(a: seq<T>, b: seq<T>, c: seq<T>)
    requires Suffix(a, b) && Suffix(b, c)
    ensures Suffix(a, c)
  {
    assert c[|c| - |b|..][|b| - |a|..] == c[|c| - |a|..];
  }

  lemma ConsumesTrans(env: Env, mid: Env, rest: Env)
    requires Consumes(env, mid) && Consumes(mid, rest)
    ensures Consumes(env, rest)
  {
    SuffixTrans(rest.setups, mid.setups, env.setups);
    SuffixTrans(rest.ticks, mid.ticks, env.ticks);
    SuffixTrans(rest.sink, mid.sink, env.sink);
    SuffixTrans(rest.checks, mid.checks, env.checks);
  }

  /** Where a worker instance finds the context cancelled: the select at the
      top of the read loop, or the one after the reconnection sleep. */
  datatype CancelSite = AtRead | AtReconnect

  /** Observable effects. `frame` is the reconnection depth of the worker
      instance that owns the producer or connection: 0 for the worker started
      by main, k after k reconnections. */
  datatype Action =
    | ProducerOpened(frame: nat)
    | ConnOpened(frame: nat)
    | Subscribe(req: Request)
    | Received(payload: Bytes)
    | Publish(step: Step)
    | ReadFailed
    | Pause(seconds: nat)
    | CancelObserved(site: CancelSite)
    | WgAdd
    | ConnClosed(frame: nat)
    | ProducerClosed(frame: nat)
    | WgDone

  /** Effects of the deferred calls that run when a worker returns. */
  predicate IsTeardown(a: Action)
  {
    a.ConnClosed? || a.ProducerClosed? || a.WgDone?
  }

  /** Why the innermost worker instance of a chain returned. */
  datatype Reason = InitFailed | DialFailed | SubscribeFailed | CancelledAtRead | CancelledAtReconnect

  /** How a run ended: its innermost worker instance returned, or it waits on
      an oracle that has no answer left. */
  datatype Status = Exited(reason: Reason) | Pending(waitsOn: Oracle)

  /** The wait-group counter and the frames whose connection and producer are
      open. */
  datatype Resources = Resources(wg: int, conns: set<nat>, producers: set<nat>)

  /** A run: its effects, what is left of the oracle, how it ended, and the
      resources afterwards. */
  datatype Run = Run(trace: seq<Action>, rest: Env, status: Status, res: Resources)

  /** The publisher's steps as worker actions. */
  function Lift(steps: seq<Step>): (actions: seq<Action>)
    ensures |actions| == |steps|
    ensures forall i :: 0 <= i < |steps| ==> actions[i] == Publish(steps[i])
  {
    if |steps| == 0 then [] else [Publish(steps[0])] + Lift(steps[1..])
  }

  /** What forwarding one message did: its steps, the sink answers it used,
      and whether it finished (false: the sink oracle ran out first). */
  datatype Forwarding = Forwarding(steps: seq<Step>, used: nat, complete: bool)

  /** A first failed send followed by the retry loop's steps: the sends and
      the sink answers line up, and every send carries the message. */
  lemma FirstSendSteps(msg: Bytes, sink: seq<bool>)
    requires 0 < |sink| && !sink[0]
    ensures var r := RetryProduce(msg, sink[1..]);
            var steps := [Send(Produce(msg), false)] + r.steps;
            && 1 + r.used <= |sink|
            && Outcomes(steps) == sink[..1 + r.used]
            && SendsOnly(steps, Produce(msg))
            && (forall i :: 1 <= i < |steps| ==>
                  (i - 1) / 2 < |sink| - 1 && steps[i] == StepAt(msg, sink[1..], 1, i - 1))
  {
    var r := RetryProduce(msg, sink[1..]);
    var steps := [Send(Produce(msg), false)] + r.steps;
    StepsConcat([Send(Produce(msg), false)], r.steps);
    assert sink[..1 + r.used] == [false] + sink[1..][..r.used];
    forall i | 0 <= i < |steps| && steps[i].Send?
      ensures steps[i].rec == Produce(msg)
    {
      if i > 0 {
        assert steps[i] == r.steps[i - 1];
      }
    }
    forall i | 1 <= i < |steps|
      ensures (i - 1) / 2 < |sink| - 1 && steps[i] == StepAt(msg, sink[1..], 1, i - 1)
    {
      assert steps[i] == r.steps[i - 1];
    }
  }

  /** After a first failed send, the retry loop's ending says how far the
      sink answers were used: up to the first success, up to the last allowed
      attempt, or all of them, every earlier answer a failure. */
  lemma FirstSendFails(msg: Bytes, sink: seq<bool>)
    requires 0 < |sink| && !sink[0]
    ensures var r := RetryProduce(msg, sink[1..]);
            && (r.status.Delivered? ==> sink[r.used] && AllFail(sink[..r.used]))
            && (r.status.GaveUp? ==> 1 + r.used == MaxAttempts && AllFail(sink[..r.used]))
            && (r.status.Unanswered? ==> 1 + r.used == |sink| && AllFail(sink))
  {
    var r := RetryProduce(msg, sink[1..]);
    if r.status.Unanswered? {
      forall j | 0 < j < |sink|
        ensures !sink[j]
      {
        assert sink[j] == sink[1..][j - 1];
      }
    } else {
      var failed := if r.status.Delivered? then r.used - 1 else MaxRetry;
      assert AllFail(sink[1..][..failed]);
      forall j | 0 <= j < r.used
        ensures !sink[..r.used][j]
      {
        if 0 < j {
          assert sink[..r.used][j] == sink[1..][..failed][j - 1];
        }
      }
      if r.status.Delivered? {
        assert sink[r.used] == sink[1..][r.used - 1];
      }
    }
  }

  /** One message handed to the sink: a first send, and only if that one fails
      the same payload goes through the retry loop, whose step i - 1 (its
      sends and its growing sleeps, see StepAt) is step i here. Either way the
      worker moves on to the next read afterwards. */
  function Forward(msg: Bytes, sink: seq<bool>): (f: Forwarding)
    ensures f.used <= |sink| && f.used <= MaxAttempts
    ensures Outcomes(f.steps) == sink[..f.used]
    ensures SendsOnly(f.steps, Produce(msg))
    ensures f.complete ==> 1 <= f.used && AllFail(sink[..f.used - 1])
    ensures f.complete ==> sink[f.used - 1] || f.used == MaxAttempts
    ensures !f.complete ==> f.used == |sink| && AllFail(sink)
    ensures 0 < |f.steps| ==> 0 < |sink| && f.steps[0] == Send(Produce(msg), sink[0])
    ensures 0 < |sink| && sink[0] ==> f.steps == [Send(Produce(msg), true)]
    ensures 0 < |sink| && !sink[0] ==>
              |Delays(f.steps)| == if f.complete && sink[f.used - 1] then f.used - 2 else f.used - 1
    ensures forall i :: 1 <= i < |f.steps| ==>
              (i - 1) / 2 < |sink| - 1 && f.steps[i] == StepAt(msg, sink[1..], 1, i - 1)
  {
    if |sink| == 0 then
      Forwarding([], 0, false)
    else if sink[0] then
      Forwarding([Send(Produce(msg), true)], 1, true)
    else
      var r := RetryProduce(msg, sink[1..]);
      FirstSendSteps(msg, sink);
      FirstSendFails(msg, sink);
      Forwarding([Send(Produce(msg), false)] + r.steps, 1 + r.used, !r.status.Unanswered?)
  }

  /** The deferred calls of a returning worker instance, in the order Go runs
      them: the connection close, the producer close, then wg.Done. */
  function Teardown(frame: nat): seq<Action>
  {
    [ConnClosed(frame), ProducerClosed(frame), WgDone]
  }

  /** What a worker writes once its set-up succeeds: producer, connection,
      subscription. */
  function Head(batch: seq<string>, frame: nat): seq<Action>
  {
    [ProducerOpened(frame), ConnOpened(frame), Subscribe(SubscribeRequest(batch))]
  }

  /** The resources once worker `frame` holds its producer and connection. */
  function Open(res: Resources, frame: nat): Resources
  {
    res.(conns := res.conns + {frame}, producers := res.producers + {frame})
  }

  /** BatchSubscribeDeribitContracts for `batch`, as worker instance `frame`.
      A run that has not returned waits on an oracle that has run out. */
  function Worker(batch: seq<string>, env: Env, frame: nat, res: Resources): (r: Run)
    decreases |env.ticks|, 2
    ensures r.status.Pending? ==> Exhausted(r.rest, r.status.waitsOn)
  {
    if |env.setups| == 0 then
      Run([], env, Pending(SetupOracle), res)
    else
      var e := env.(setups := env.setups[1..]);
      var done := res.(wg := res.wg - 1);
      match env.setups[0]
      case InitFails =>
        Run([WgDone], e, Exited(InitFailed), done)
      case DialFails =>
        Run([ProducerOpened(frame), ProducerClosed(frame), WgDone], e, Exited(DialFailed), done)
      case WriteFails =>
        Run(Head(batch, frame) + Teardown(frame), e, Exited(SubscribeFailed), done)
      case Ready =>
        var loop := ReadLoop(batch, e, frame, Open(res, frame));
        if loop.status.Pending? then
          Run(Head(batch, frame) + loop.trace, loop.rest, loop.status, loop.res)
        else
          var closed := loop.res.(wg := loop.res.wg - 1,
                                  conns := loop.res.conns - {frame},
                                  producers := loop.res.producers - {frame});
          Run(Head(batch, frame) + loop.trace + Teardown(frame), loop.rest, loop.status, closed)
  }

  /** The read loop of worker instance `frame`: check the context, read, and
      forward each message to the sink. */
  function ReadLoop(batch: seq<string>, env: Env, frame: nat, res: Resources): (r: Run)
    decreases |env.ticks|, 1
    ensures r.status.Pending? ==> Exhausted(r.rest, r.status.waitsOn)
  {
    if |env.ticks| == 0 then
      Run([], env, Pending(TickOracle), res)
    else
      var e := env.(ticks := env.ticks[1..]);
      match env.ticks[0]
      case Cancel =>
        Run([CancelObserved(AtRead)], e, Exited(CancelledAtRead), res)
      case ReadError =>
        var r := Reconnect(batch, e, frame, res);
        Run([ReadFailed] + r.trace, r.rest, r.status, r.res)
      case Message(msg) =>
        var f := Forward(msg, e.sink);
        var e' := e.(sink := e.sink[f.used..]);
        if !f.complete then
          Run([Received(msg)] + Lift(f.steps), e', Pending(SinkOracle), res)
        else
          var next := ReadLoop(batch, e', frame, res);
          Run([Received(msg)] + Lift(f.steps) + next.trace, next.rest, next.status, next.res)
  }

  /** handleReconnection: sleep, then check the context; unless it is
      cancelled add one to the wait group and run a fresh worker for the same
      batch, nested inside the failed one. */
  function Reconnect(batch: seq<string>, env: Env, frame: nat, res: Resources): (r: Run)
    decreases |env.ticks|, 3
    ensures r.status.Pending? ==> Exhausted(r.rest, r.status.waitsOn)
  {
    if |env.checks| == 0 then
      Run([Pause(ReconnectDelay)], env, Pending(CheckOracle), res)
    else
      var e := env.(checks := env.checks[1..]);
      if env.checks[0] then
        Run([Pause(ReconnectDelay), CancelObserved(AtReconnect)], e, Exited(CancelledAtReconnect), res)
      else
        var w := Worker(batch, e, frame + 1, res.(wg := res.wg + 1));
        Run([Pause(ReconnectDelay), WgAdd] + w.trace, w.rest, w.status, w.res)
  }
}

=== FILE: subscriber_trace.dfy ===
/** Properties of the worker model: what a worker chain leaves open, what its
    trace may and may not contain, and how messages reach the sink. */
module SubscriberTrace {
  import opened Kafka
  import opened Deribit
  import opened Subscriber

  /* ----- Reading a trace ----- */

  /** Number of actions in `t` that satisfy `p`. */
  function Count(t: seq<Action>, p: Action -> bool): nat
  {
    if |t| == 0 then 0 else (if p(t[0]) then 1 else 0) + Count(t[1..], p)
  }

  predicate IsWgAdd(a: Action) { a.WgAdd? }
  predicate IsConnOpened(a: Action) { a.ConnOpened? }
  predicate IsSubscribe(a: Action) { a.Subscribe? }
  predicate IsReadFailed(a: Action) { a.ReadFailed? }
  predicate IsPause(a: Action) { a.Pause? }
  predicate IsPublish(a: Action) { a.Publish? }
  predicate IsReceived(a: Action) { a.Received? }

  /** Frames whose connection was opened in `t`. */
  function Opened(t: seq<Action>): set<nat>
  {
    if |t| == 0 then {} else (if t[0].ConnOpened? then {t[0].frame} else {}) + Opened(t[1..])
  }

  lemma {:induction false} CountConcat(a: seq<Action>, b: seq<Action>, p: Action -> bool)
    ensures Count(a + b, p) == Count(a, p) + Count(b, p)
  {
    if |a| == 0 {
      assert a + b == b;
    } else {
      assert (a + b)[1..] == a[1..] + b;
      CountConcat(a[1..], b, p);
    }
  }

  lemma {:induction false} OpenedConcat(a: seq<Action>, b: seq<Action>)
    ensures Opened(a + b) == Opened(a) + Opened(b)
  {
    if |a| == 0 {
      assert a + b == b;
    } else {
      assert (a + b)[1..] == a[1..] + b;
      OpenedConcat(a[1..], b);
    }
  }

  lemma {:induction false} CountNone(t: seq<Action>, p: Action -> bool)
    requires forall i :: 0 <= i < |t| ==> !p(t[i])
    ensures Count(t, p) == 0
  {
    if |t| > 0 {
      CountNone(t[1..], p);
    }
  }

  lemma {:induction false} OpenedNone(t: seq<Action>)
    requires forall i :: 0 <= i < |t| ==> !t[i].ConnOpened?
    ensures Opened(t) == {}
  {
    if |t| > 0 {
      OpenedNone(t[1..]);
    }
  }

  /* ----- One step of a run ----- */

  lemma UnfoldReady(batch: seq<string>, env: Env, frame: nat, res: Resources)
    requires 0 < |env.setups| && env.setups[0].Ready?
    ensures var loop := ReadLoop(batch, env.(setups := env.setups[1..]), frame, Open(res, frame));
            var r := Worker(batch, env, frame, res);
            && r.status == loop.status && r.rest == loop.rest
            && (loop.status.Pending? ==> r.trace == Head(batch, frame) + loop.trace && r.res == loop.res)
            && (loop.status.Exited? ==>
                  && r.trace == Head(batch, frame) + loop.trace + Teardown(frame)
                  && r.res == loop.res.(wg := loop.res.wg - 1,
                                        conns := loop.res.conns - {frame},
                                        producers := loop.res.producers - {frame}))
  {
  }

  lemma UnfoldReadError(batch: seq<string>, env: Env, frame: nat, res: Resources)
    requires 0 < |env.ticks| && env.ticks[0].ReadError?
    ensures var rc := Reconnect(batch, env.(ticks := env.ticks[1..]), frame, res);
            ReadLoop(batch, env, frame, res) == Run([ReadFailed] + rc.trace, rc.rest, rc.status, rc.res)
  {
  }

  lemma UnfoldMessage(batch: seq<string>, env: Env, frame: nat, res: Resources)
    requires 0 < |env.ticks| && env.ticks[0].Message?
    ensures var msg := env.ticks[0].payload;
            var f := Forward(msg, env.sink);
            var e' := env.(ticks := env.ticks[1..], sink := env.sink[f.used..]);
            var pre := [Received(msg)] + Lift(f.steps);
            var next := ReadLoop(batch, e', frame, res);
            ReadLoop(batch, env, frame, res)
            == if f.complete then Run(pre + next.trace, next.rest, next.status, next.res) else Run(pre, e', Pending(SinkOracle), res)
  {
  }

  lemma UnfoldReconnect(batch: seq<string>, env: Env, frame: nat, res: Resources)
    ensures |env.checks| == 0 ==>
              Reconnect(batch, env, frame, res) == Run([Pause(ReconnectDelay)], env, Pending(CheckOracle), res)
    ensures 0 < |env.checks| && env.checks[0] ==>
              Reconnect(batch, env, frame, res)
              == Run([Pause(ReconnectDelay), CancelObserved(AtReconnect)], env.(checks := env.checks[1..]), Exited(CancelledAtReconnect), res)
    ensures 0 < |env.checks| && !env.checks[0] ==>
              var w := Worker(batch, env.(checks := env.checks[1..]), frame + 1, res.(wg := res.wg + 1));
              Reconnect(batch, env, frame, res) == Run([Pause(ReconnectDelay), WgAdd] + w.trace, w.rest, w.status, w.res)
  {
  }

  /* ----- Oracle use ----- */

  /** The answers of `t` used once `rest` is what is left. */
  function Used<T>(t: seq<T>, rest: seq<T>): seq<T>
    requires |rest| <= |t|
  {
    t[..|t| - |rest|]
  }

  lemma UsedTrans<T>(t: seq<T>, mid: seq<T>, rest: seq<T>)
    requires Suffix(mid, t) && Suffix(rest, mid)
    ensures Suffix(rest, t)
    ensures Used(t, rest) == Used(t, mid) + Used(mid, rest)
  {
    SuffixTrans(rest, mid, t);
    var k := |t| - |mid|;
    assert mid == t[k..];
    assert Used(mid, rest) == t[k..|t| - |rest|];
  }

  /** Answers of the tick, sink and check parts of the oracle, in order. */
  datatype Answers = Answers(ticks: seq<Tick>, sink: seq<bool>, checks: seq<bool>)
  {
    function Plus(o: Answers): Answers
    {
      Answers(ticks + o.ticks, sink + o.sink, checks + o.checks)
    }
  }

  /** The answer a single action shows: a read shows its tick, a send the
      sink's answer, a wg.Add the check that found the context live, the
      observation after the reconnection sleep the check that found it
      cancelled. */
  function ShownBy(a: Action): Answers
  {
    match a
    case Received(m) => Answers([Message(m)], [], [])
    case ReadFailed => Answers([ReadError], [], [])
    case CancelObserved(AtRead) => Answers([Cancel], [], [])
    case Publish(Send(_, ok)) => Answers([], [ok], [])
    case WgAdd => Answers([], [], [false])
    case CancelObserved(AtReconnect) => Answers([], [], [true])
    case _ => Answers([], [], [])
  }

  /** The answers a trace shows, in order. */
  function Shown(t: seq<Action>): Answers
  {
    if |t| == 0 then Answers([], [], []) else ShownBy(t[0]).Plus(Shown(t[1..]))
  }

  lemma PlusAssoc(x: Answers, y: Answers, z: Answers)
    ensures x.Plus(y).Plus(z) == x.Plus(y.Plus(z))
  {
    assert x.ticks + y.ticks + z.ticks == x.ticks + (y.ticks + z.ticks);
    assert x.sink + y.sink + z.sink == x.sink + (y.sink + z.sink);
    assert x.checks + y.checks + z.checks == x.checks + (y.checks + z.checks);
  }

  lemma {:induction false} ShownConcat(a: seq<Action>, b: seq<Action>)
    ensures Shown(a + b) == Shown(a).Plus(Shown(b))
  {
    if |a| == 0 {
      assert a + b == b;
      var x := Shown(b);
      assert x.ticks == [] + x.ticks && x.sink == [] + x.sink && x.checks == [] + x.checks;
    } else {
      assert (a + b)[0] == a[0];
      assert (a + b)[1..] == a[1..] + b;
      ShownConcat(a[1..], b);
      PlusAssoc(ShownBy(a[0]), Shown(a[1..]), Shown(b));
    }
  }

  /** A trace whose actions show no answer. */
  lemma {:induction false} ShownNone(t: seq<Action>)
    requires forall i :: 0 <= i < |t| ==> ShownBy(t[i]) == Answers([], [], [])
    ensures Shown(t) == Answers([], [], [])
  {
    if |t| > 0 {
      ShownNone(t[1..]);
    }
  }

  lemma ShownOne(a: Action)
    ensures Shown([a]) == ShownBy(a)
  {
    assert [a][1..] == [];
  }

  /** Published steps show their sends' answers, in order. */
  lemma {:induction false} ShownLift(steps: seq<Step>)
    ensures Shown(Lift(steps)) == Answers([], Outcomes(steps), [])
  {
    if |steps| > 0 {
      assert Lift(steps)[1..] == Lift(steps[1..]);
      ShownLift(steps[1..]);
    }
  }

  /** The tick, sink and check answers `env` gave before `rest` was left. */
  function UsedAnswers(env: Env, rest: Env): Answers
    requires Consumes(env, rest)
  {
    Answers(Used(env.ticks, rest.ticks), Used(env.sink, rest.sink), Used(env.checks, rest.checks))
  }

  lemma UsedAnswersTrans(env: Env, mid: Env, rest: Env)
    requires Consumes(env, mid) && Consumes(mid, rest)
    ensures Consumes(env, rest)
    ensures UsedAnswers(env, rest) == UsedAnswers(env, mid).Plus(UsedAnswers(mid, rest))
  {
    ConsumesTrans(env, mid, rest);
    UsedTrans(env.ticks, mid.ticks, rest.ticks);
    UsedTrans(env.sink, mid.sink, rest.sink);
    UsedTrans(env.checks, mid.checks, rest.checks);
  }

  /** A chain takes each oracle's answers in order and none twice -- what it
      leaves is a suffix of what it was given -- and its trace shows, answer
      for answer, the ticks it read, the sink's answer to each of its sends
      and the outcome of each context check after a reconnection sleep. */
  predicate Answered(env: Env, r: Run)
  {
    Consumes(env, r.rest) && Shown(r.trace) == UsedAnswers(env, r.rest)
  }

  /** A piece that shows the answers used from `env` to `mid`, followed by a
      run from `mid`. */
  lemma AnsweredThen(env: Env, mid: Env, pre: seq<Action>, r: Run)
    requires Consumes(env, mid) && Shown(pre) == UsedAnswers(env, mid)
    requires Answered(mid, r)
    ensures Answered(env, Run(pre + r.trace, r.rest, r.status, r.res))
  {
    UsedAnswersTrans(env, mid, r.rest);
    ShownConcat(pre, r.trace);
  }

  /** A run followed by actions that show no answer. */
  lemma AnsweredClose(env: Env, r: Run, post: seq<Action>, status: Status, res: Resources)
    requires Answered(env, r) && Shown(post) == Answers([], [], [])
    ensures Answered(env, Run(r.trace + post, r.rest, status, res))
  {
    ShownConcat(r.trace, post);
    var x := Shown(r.trace);
    assert x.ticks + [] == x.ticks && x.sink + [] == x.sink && x.checks + [] == x.checks;
  }

  /** A run that has used no answer and shows none. */
  lemma AnsweredNothing(env: Env, r: Run)
    requires r.rest == env && Shown(r.trace) == Answers([], [], [])
    ensures Answered(env, r)
  {
  }

  /** One message read and forwarded shows that tick and the sink answers
      its sends used. */
  lemma ForwardShown(env: Env, msg: Bytes)
    requires 0 < |env.ticks| && env.ticks[0] == Message(msg)
    ensures var f := Forward(msg, env.sink);
            var e' := env.(ticks := env.ticks[1..], sink := env.sink[f.used..]);
            && Consumes(env, e')
            && Shown([Received(msg)] + Lift(f.steps)) == UsedAnswers(env, e')
  {
    var f := Forward(msg, env.sink);
    var e' := env.(ticks := env.ticks[1..], sink := env.sink[f.used..]);
    assert Consumes(env, e');
    assert Used(env.ticks, e'.ticks) == [Message(msg)];
    assert Used(env.sink, e'.sink) == Outcomes(f.steps);
    ShownOne(Received(msg));
    ShownLift(f.steps);
    ShownConcat([Received(msg)], Lift(f.steps));
  }

  /** Every oracle answer a worker chain uses shows in its trace, in order:
      no tick, sink answer or context check is skipped, read twice or
      invented. Together with the postcondition of Worker, a pending chain
      has used up the oracle it waits on. */
  lemma {:induction false} WorkerConsumes(batch: seq<string>, env: Env, frame: nat, res: Resources)
    decreases |env.ticks|, 3
    ensures Answered(env, Worker(batch, env, frame, res))
  {
    var r := Worker(batch, env, frame, res);
    if |env.setups| == 0 {
      ShownNone(r.trace);
      AnsweredNothing(env, r);
    } else if env.setups[0].Ready? {
      ReadyConsumes(batch, env, frame, res);
    } else {
      var e := env.(setups := env.setups[1..]);
      assert Consumes(env, e);
      ShownNone(r.trace);
    }
  }

  lemma {:induction false} ReadyConsumes(batch: seq<string>, env: Env, frame: nat, res: Resources)
    requires 0 < |env.setups| && env.setups[0].Ready?
    decreases |env.ticks|, 2
    ensures Answered(env, Worker(batch, env, frame, res))
  {
    UnfoldReady(batch, env, frame, res);
    var e := env.(setups := env.setups[1..]);
    var loop := ReadLoop(batch, e, frame, Open(res, frame));
    ReadLoopConsumes(batch, e, frame, Open(res, frame));
    assert Consumes(env, e);
    ShownNone(Head(batch, frame));
    AnsweredThen(env, e, Head(batch, frame), loop);
    if loop.status.Exited? {
      var r := Worker(batch, env, frame, res);
      ShownNone(Teardown(frame));
      AnsweredClose(env, Run(Head(batch, frame) + loop.trace, loop.rest, loop.status, loop.res),
                    Teardown(frame), r.status, r.res);
    }
  }

  /** A read loop given a tick reads it. */
  lemma {:induction false} ReadLoopConsumes(batch: seq<string>, env: Env, frame: nat, res: Resources)
    decreases |env.ticks|, 1
    ensures Answered(env, ReadLoop(batch, env, frame, res))
    ensures 0 < |env.ticks| ==> |ReadLoop(batch, env, frame, res).rest.ticks| < |env.ticks|
  {
    if |env.ticks| == 0 {
      ShownNone([]);
      AnsweredNothing(env, ReadLoop(batch, env, frame, res));
    } else {
      match env.ticks[0]
      case Cancel =>
        var e := env.(ticks := env.ticks[1..]);
        assert Consumes(env, e);
        ShownOne(CancelObserved(AtRead));
        assert Used(env.ticks, e.ticks) == [Cancel];
      case ReadError =>
        ReadErrorConsumes(batch, env, frame, res);
      case Message(_) =>
        MessageConsumes(batch, env, frame, res);
    }
  }

  lemma {:induction false} ReadErrorConsumes(batch: seq<string>, env: Env, frame: nat, res: Resources)
    requires 0 < |env.ticks| && env.ticks[0].ReadError?
    decreases |env.ticks|, 0
    ensures Answered(env, ReadLoop(batch, env, frame, res))
    ensures |ReadLoop(batch, env, frame, res).rest.ticks| < |env.ticks|
  {
    var e := env.(ticks := env.ticks[1..]);
    UnfoldReadError(batch, env, frame, res);
    var rc := Reconnect(batch, e, frame, res);
    ReconnectConsumes(batch, e, frame, res);
    assert Consumes(env, e);
    assert Used(env.ticks, e.ticks) == [ReadError];
    ShownOne(ReadFailed);
    AnsweredThen(env, e, [ReadFailed], rc);
  }

  lemma {:induction false} MessageConsumes(batch: seq<string>, env: Env, frame: nat, res: Resources)
    requires 0 < |env.ticks| && env.ticks[0].Message?
    decreases |env.ticks|, 0
    ensures Answered(env, ReadLoop(batch, env, frame, res))
    ensures |ReadLoop(batch, env, frame, res).rest.ticks| < |env.ticks|
  {
    var msg := env.ticks[0].payload;
    UnfoldMessage(batch, env, frame, res);
    var f := Forward(msg, env.sink);
    var e' := env.(ticks := env.ticks[1..], sink := env.sink[f.used..]);
    ForwardShown(env, msg);
    if f.complete {
      var next := ReadLoop(batch, e', frame, res);
      ReadLoopConsumes(batch, e', frame, res);
      AnsweredThen(env, e', [Received(msg)] + Lift(f.steps), next);
    }
  }

  /** The sleep and the context check after it show the check's answer: the
      observation of the cancelled context, or the wg.Add of a live one. */
  lemma CheckShown(env: Env)
    requires 0 < |env.checks|
    ensures var e := env.(checks := env.checks[1..]);
            var seen := if env.checks[0] then CancelObserved(AtReconnect) else WgAdd;
            Consumes(env, e) && Shown([Pause(ReconnectDelay), seen]) == UsedAnswers(env, e)
  {
    var e := env.(checks := env.checks[1..]);
    var seen := if env.checks[0] then CancelObserved(AtReconnect) else WgAdd;
    assert Consumes(env, e);
    assert Used(env.checks, e.checks) == [env.checks[0]];
    ShownOne(Pause(ReconnectDelay));
    ShownOne(seen);
    ShownConcat([Pause(ReconnectDelay)], [seen]);
    assert [Pause(ReconnectDelay)] + [seen] == [Pause(ReconnectDelay), seen];
  }

  lemma {:induction false} ReconnectConsumes(batch: seq<string>, env: Env, frame: nat, res: Resources)
    decreases |env.ticks|, 4
    ensures Answered(env, Reconnect(batch, env, frame, res))
  {
    UnfoldReconnect(batch, env, frame, res);
    if |env.checks| == 0 {
      ShownNone([Pause(ReconnectDelay)]);
      AnsweredNothing(env, Reconnect(batch, env, frame, res));
    } else {
      var e := env.(checks := env.checks[1..]);
      CheckShown(env);
      if !env.checks[0] {
        var added := res.(wg := res.wg + 1);
        WorkerConsumes(batch, e, frame + 1, added);
        AnsweredThen(env, e, [Pause(ReconnectDelay), WgAdd], Worker(batch, e, frame + 1, added));
      }
    }
  }

  /* Why a chain returned. */

  /** The last answer of `t` used once `rest` is left, if any. */
  function LastUsed<T>(t: seq<T>, rest: seq<T>): Option<T>
  {
    if |rest| < |t| then Some(t[|t| - |rest| - 1]) else None
  }

  lemma LastUsedStep<T>(t: seq<T>, rest: seq<T>)
    requires 0 < |t| && |rest| < |t|
    ensures LastUsed(t, rest) == if |rest| < |t| - 1 then LastUsed(t[1..], rest) else Some(t[0])
  {
  }

  /** Why a chain returned is the last answer it used of the oracle part that
      decided it -- the failed set-up step, the cancellation read at the top
      of a read loop, or the check after a reconnection sleep that found the
      context cancelled -- and each of those answers, when it is the last one
      of its part used, ended the chain that way. */
  predicate EndsAsAnswered(env: Env, r: Run)
  {
    && (r.status == Exited(InitFailed) <==> LastUsed(env.setups, r.rest.setups) == Some(InitFails))
    && (r.status == Exited(DialFailed) <==> LastUsed(env.setups, r.rest.setups) == Some(DialFails))
    && (r.status == Exited(SubscribeFailed) <==> LastUsed(env.setups, r.rest.setups) == Some(WriteFails))
    && (r.status == Exited(CancelledAtRead) <==> LastUsed(env.ticks, r.rest.ticks) == Some(Cancel))
    && (r.status == Exited(CancelledAtReconnect) <==> LastUsed(env.checks, r.rest.checks) == Some(true))
  }

  /** A worker chain returns for a reason only when the oracle said so: its
      innermost worker's producer, dial or subscription failed, or the
      context was found cancelled at the top of a read loop or after a
      reconnection sleep -- each the last answer the chain used of that
      part. */
  lemma {:induction false} WorkerEnds(batch: seq<string>, env: Env, frame: nat, res: Resources)
    decreases |env.ticks|, 3
    ensures EndsAsAnswered(env, Worker(batch, env, frame, res))
  {
    if |env.setups| > 0 && env.setups[0].Ready? {
      ReadyEnds(batch, env, frame, res);
    }
  }

  lemma {:induction false} ReadyEnds(batch: seq<string>, env: Env, frame: nat, res: Resources)
    requires 0 < |env.setups| && env.setups[0].Ready?
    decreases |env.ticks|, 2
    ensures EndsAsAnswered(env, Worker(batch, env, frame, res))
  {
    UnfoldReady(batch, env, frame, res);
    var e := env.(setups := env.setups[1..]);
    var loop := ReadLoop(batch, e, frame, Open(res, frame));
    ReadLoopEnds(batch, e, frame, Open(res, frame));
    ReadLoopConsumes(batch, e, frame, Open(res, frame));
    LastUsedStep(env.setups, loop.rest.setups);
  }

  lemma {:induction false} ReadLoopEnds(batch: seq<string>, env: Env, frame: nat, res: Resources)
    decreases |env.ticks|, 1
    ensures EndsAsAnswered(env, ReadLoop(batch, env, frame, res))
  {
    if |env.ticks| > 0 {
      match env.ticks[0]
      case Cancel =>
      case ReadError =>
        ReadErrorEnds(batch, env, frame, res);
      case Message(_) =>
        MessageEnds(batch, env, frame, res);
    }
  }

  lemma {:induction false} ReadErrorEnds(batch: seq<string>, env: Env, frame: nat, res: Resources)
    requires 0 < |env.ticks| && env.ticks[0].ReadError?
    decreases |env.ticks|, 0
    ensures EndsAsAnswered(env, ReadLoop(batch, env, frame, res))
  {
    var e := env.(ticks := env.ticks[1..]);
    UnfoldReadError(batch, env, frame, res);
    var rc := Reconnect(batch, e, frame, res);
    ReconnectEnds(batch, e, frame, res);
    ReconnectConsumes(batch, e, frame, res);
    LastUsedStep(env.ticks, rc.rest.ticks);
  }

  lemma {:induction false} MessageEnds(batch: seq<string>, env: Env, frame: nat, res: Resources)
    requires 0 < |env.ticks| && env.ticks[0].Message?
    decreases |env.ticks|, 0
    ensures EndsAsAnswered(env, ReadLoop(batch, env, frame, res))
  {
    var msg := env.ticks[0].payload;
    UnfoldMessage(batch, env, frame, res);
    var f := Forward(msg, env.sink);
    var e' := env.(ticks := env.ticks[1..], sink := env.sink[f.used..]);
    if f.complete {
      var next := ReadLoop(batch, e', frame, res);
      ReadLoopEnds(batch, e', frame, res);
      ReadLoopConsumes(batch, e', frame, res);
      LastUsedStep(env.ticks, next.rest.ticks);
    }
  }

  lemma {:induction false} ReconnectEnds(batch: seq<string>, env: Env, frame: nat, res: Resources)
    decreases |env.ticks|, 4
    ensures EndsAsAnswered(env, Reconnect(batch, env, frame, res))
  {
    UnfoldReconnect(batch, env, frame, res);
    if 0 < |env.checks| && !env.checks[0] {
      var e := env.(checks := env.checks[1..]);
      var added := res.(wg := res.wg + 1);
      var w := Worker(batch, e, frame + 1, added);
      WorkerEnds(batch, e, frame + 1, added);
      WorkerConsumes(batch, e, frame + 1, added);
      LastUsedStep(env.checks, w.rest.checks);
    }
  }

  /* ----- Wait group and open resources ----- */

  /** Every frame holding an open connection or producer is below `frame`. */
  predicate Below(res: Resources, frame: nat)
  {
    (forall i :: i in res.conns ==> i < frame) && (forall i :: i in res.producers ==> i < frame)
  }

  /** What a worker chain promises about the wait group and its resources:
      once it has returned, it made exactly one net wg.Done and closed every
      connection and producer it opened; while it is still running, nothing it
      opened has been closed yet and every reconnection's wg.Add is still
      outstanding. */
  ghost predicate Balanced(before: Resources, r: Run, net: int)
  {
    && (r.status.Exited? ==> r.res == before.(wg := before.wg + net))
    && (r.status.Pending? ==>
          && Count(r.trace, IsTeardown) == 0
          && r.res.wg == before.wg + Count(r.trace, IsWgAdd)
          && r.res.conns == before.conns + Opened(r.trace)
          && r.res.producers == before.producers + Opened(r.trace))
  }

  /** WaitGroup and lease balance of BatchSubscribeDeribitContracts: net one
      wg.Done per call, all its resources released on return, none released
      while it (or a reconnection nested in it) still runs. */
  lemma {:induction false} WorkerBalanced(batch: seq<string>, env: Env, frame: nat, res: Resources)
    requires Below(res, frame)
    decreases |env.ticks|, 3
    ensures Balanced(res, Worker(batch, env, frame, res), -1)
  {
    if |env.setups| > 0 && env.setups[0].Ready? {
      ReadyBalanced(batch, env, frame, res);
    }
  }

  lemma {:induction false} ReadyBalanced(batch: seq<string>, env: Env, frame: nat, res: Resources)
    requires Below(res, frame)
    requires 0 < |env.setups| && env.setups[0].Ready?
    decreases |env.ticks|, 2
    ensures Balanced(res, Worker(batch, env, frame, res), -1)
  {
    UnfoldReady(batch, env, frame, res);
    var e := env.(setups := env.setups[1..]);
    var head := Head(batch, frame);
    var loop := ReadLoop(batch, e, frame, Open(res, frame));
    ReadLoopBalanced(batch, e, frame, Open(res, frame));
    CountConcat(head, loop.trace, IsTeardown);
    CountConcat(head, loop.trace, IsWgAdd);
    OpenedConcat(head, loop.trace);
    assert Opened(head) == {frame} by {
      OpenedNone(head[2..]);
      assert head[1..][1..] == head[2..];
    }
    CountNone(head, IsTeardown);
    CountNone(head, IsWgAdd);
    if loop.status.Exited? {
      assert res.conns + {frame} - {frame} == res.conns;
      assert res.producers + {frame} - {frame} == res.producers;
    }
  }

  lemma {:induction false} ReadLoopBalanced(batch: seq<string>, env: Env, frame: nat, res: Resources)
    requires Below(res, frame + 1)
    decreases |env.ticks|, 1
    ensures Balanced(res, ReadLoop(batch, env, frame, res), 0)
  {
    if |env.ticks| > 0 {
      match env.ticks[0]
      case Cancel =>
      case ReadError =>
        ReadErrorBalanced(batch, env, frame, res);
      case Message(_) =>
        MessageBalanced(batch, env, frame, res);
    }
  }

  lemma {:induction false} ReadErrorBalanced(batch: seq<string>, env: Env, frame: nat, res: Resources)
    requires Below(res, frame + 1)
    requires 0 < |env.ticks| && env.ticks[0].ReadError?
    decreases |env.ticks|, 0
    ensures Balanced(res, ReadLoop(batch, env, frame, res), 0)
  {
    var e := env.(ticks := env.ticks[1..]);
    UnfoldReadError(batch, env, frame, res);
    var r := Reconnect(batch, e, frame, res);
    ReconnectBalanced(batch, e, frame, res);
    CountNone([ReadFailed], IsTeardown);
    CountNone([ReadFailed], IsWgAdd);
    OpenedNone([ReadFailed]);
    CountConcat([ReadFailed], r.trace, IsTeardown);
    CountConcat([ReadFailed], r.trace, IsWgAdd);
    OpenedConcat([ReadFailed], r.trace);
  }

  lemma {:induction false} MessageBalanced(batch: seq<string>, env: Env, frame: nat, res: Resources)
    requires Below(res, frame + 1)
    requires 0 < |env.ticks| && env.ticks[0].Message?
    decreases |env.ticks|, 0
    ensures Balanced(res, ReadLoop(batch, env, frame, res), 0)
  {
    var msg := env.ticks[0].payload;
    UnfoldMessage(batch, env, frame, res);
    var f := Forward(msg, env.sink);
    var e' := env.(ticks := env.ticks[1..], sink := env.sink[f.used..]);
    var pre := [Received(msg)] + Lift(f.steps);
    ForwardingQuiet([], msg, f.steps);
    if f.complete {
      var next := ReadLoop(batch, e', frame, res);
      ReadLoopBalanced(batch, e', frame, res);
      CountConcat(pre, next.trace, IsTeardown);
      CountConcat(pre, next.trace, IsWgAdd);
      OpenedConcat(pre, next.trace);
    }
  }

  lemma {:induction false} ReconnectBalanced(batch: seq<string>, env: Env, frame: nat, res: Resources)
    requires Below(res, frame + 1)
    decreases |env.ticks|, 4
    ensures Balanced(res, Reconnect(batch, env, frame, res), 0)
  {
    UnfoldReconnect(batch, env, frame, res);
    if |env.checks| == 0 {
      CountNone([Pause(ReconnectDelay)], IsTeardown);
      CountNone([Pause(ReconnectDelay)], IsWgAdd);
      OpenedNone([Pause(ReconnectDelay)]);
    } else if !env.checks[0] {
      var e := env.(checks := env.checks[1..]);
      var added := res.(wg := res.wg + 1);
      var w := Worker(batch, e, frame + 1, added);
      WorkerBalanced(batch, e, frame + 1, added);
      var pre := [Pause(ReconnectDelay), WgAdd];
      CountNone(pre, IsTeardown);
      OpenedNone(pre);
      assert Count(pre, IsWgAdd) == 1 by {
        CountNone(pre[1..][1..], IsWgAdd);
      }
      CountConcat(pre, w.trace, IsTeardown);
      CountConcat(pre, w.trace, IsWgAdd);
      OpenedConcat(pre, w.trace);
    }
  }

  /* ----- Shape of a trace ----- */

  function Ind(b: bool): nat { if b then 1 else 0 }

  lemma CountOne(x: Action, p: Action -> bool)
    ensures Count([x], p) == Ind(p(x))
  {
    assert [x][1..] == [];
  }

  lemma CountTwo(x: Action, y: Action, p: Action -> bool)
    ensures Count([x, y], p) == Ind(p(x)) + Ind(p(y))
  {
    assert [x, y][1..] == [y];
    CountOne(y, p);
  }

  lemma CountThree(x: Action, y: Action, z: Action, p: Action -> bool)
    ensures Count([x, y, z], p) == Ind(p(x)) + Ind(p(y)) + Ind(p(z))
  {
    assert [x, y, z][1..] == [y, z];
    CountTwo(y, z, p);
  }

  /** Every subscription written in `t` names exactly the channels of `batch`. */
  predicate SubscribesTo(t: seq<Action>, batch: seq<string>)
  {
    forall i :: 0 <= i < |t| && t[i].Subscribe? ==> t[i].req == SubscribeRequest(batch)
  }

  /** Every reconnection sleep in `t` lasts ReconnectDelay seconds. */
  predicate FixedPauses(t: seq<Action>)
  {
    forall i :: 0 <= i < |t| && t[i].Pause? ==> t[i].seconds == ReconnectDelay
  }

  predicate NoCancel(t: seq<Action>)
  {
    forall i :: 0 <= i < |t| ==> !t[i].CancelObserved?
  }

  predicate AllTeardown(t: seq<Action>)
  {
    forall i :: 0 <= i < |t| ==> IsTeardown(t[i])
  }

  /** Once the cancelled context has been observed, only deferred closes and
      wg.Done follow: no further dial, subscription, read or send. */
  ghost predicate QuietAfterCancel(t: seq<Action>)
  {
    forall i, j :: 0 <= i < j < |t| && t[i].CancelObserved? ==> IsTeardown(t[j])
  }

  lemma QuietConcat(a: seq<Action>, b: seq<Action>)
    requires QuietAfterCancel(a) && QuietAfterCancel(b)
    requires NoCancel(a) || AllTeardown(b)
    ensures QuietAfterCancel(a + b)
  {
    var t := a + b;
    forall i, j | 0 <= i < j < |t| && t[i].CancelObserved?
      ensures IsTeardown(t[j])
    {
      if j < |a| {
        assert t[i] == a[i] && t[j] == a[j];
      } else if i < |a| {
        assert t[i] == a[i] && t[j] == b[j - |a|];
      } else {
        assert t[i] == b[i - |a|] && t[j] == b[j - |a|];
      }
    }
  }

  /* Subscriptions. */

  /** Every connection opened in `t` gets its subscription request right
      after it, and a request is written nowhere else: one per connection,
      each naming the channels of `batch`. */
  ghost predicate SubscribesOnce(batch: seq<string>, t: seq<Action>)
  {
    && Count(t, IsSubscribe) == Count(t, IsConnOpened) && SubscribesTo(t, batch)
    && (forall i :: 0 <= i < |t| && t[i].ConnOpened? ==>
          i + 1 < |t| && t[i + 1] == Subscribe(SubscribeRequest(batch)))
    && (forall i :: 0 <= i < |t| && t[i].Subscribe? ==> 0 < i && t[i - 1].ConnOpened?)
  }

  lemma SubscribesConcat(batch: seq<string>, a: seq<Action>, b: seq<Action>)
    requires SubscribesOnce(batch, a) && SubscribesOnce(batch, b)
    ensures SubscribesOnce(batch, a + b)
  {
    CountConcat(a, b, IsSubscribe);
    CountConcat(a, b, IsConnOpened);
    var t := a + b;
    forall i | 0 <= i < |t| && t[i].Subscribe?
      ensures t[i].req == SubscribeRequest(batch)
      ensures 0 < i && t[i - 1].ConnOpened?
    {
      if i < |a| {
        assert t[i] == a[i] && t[i - 1] == a[i - 1];
      } else {
        assert t[i] == b[i - |a|];
        assert t[i - 1] == b[i - 1 - |a|];
      }
    }
    forall i | 0 <= i < |t| && t[i].ConnOpened?
      ensures i + 1 < |t| && t[i + 1] == Subscribe(SubscribeRequest(batch))
    {
      if i < |a| {
        assert t[i] == a[i] && t[i + 1] == a[i + 1];
      } else {
        assert t[i] == b[i - |a|] && t[i + 1] == b[i + 1 - |a|];
      }
    }
  }

  /** The set-up's own connection and its subscription. */
  lemma HeadSubscribes(batch: seq<string>, frame: nat)
    ensures SubscribesOnce(batch, Head(batch, frame))
  {
    var head := Head(batch, frame);
    CountThree(head[0], head[1], head[2], IsSubscribe);
    CountThree(head[0], head[1], head[2], IsConnOpened);
  }

  /** A trace without connections and subscriptions. */
  lemma SubscribesNone(batch: seq<string>, t: seq<Action>)
    requires forall i :: 0 <= i < |t| ==> !t[i].Subscribe? && !t[i].ConnOpened?
    ensures SubscribesOnce(batch, t)
  {
    CountNone(t, IsSubscribe);
    CountNone(t, IsConnOpened);
  }

  /** Every connection a worker chain opens gets exactly one subscription
      request, and every request names the channels of the chain's batch --
      after a reconnection too. */
  lemma {:induction false} WorkerSubscribes(batch: seq<string>, env: Env, frame: nat, res: Resources)
    decreases |env.ticks|, 3
    ensures SubscribesOnce(batch, Worker(batch, env, frame, res).trace)
  {
    if |env.setups| > 0 {
      HeadSubscribes(batch, frame);
      SubscribesNone(batch, Teardown(frame));
      match env.setups[0]
      case InitFails =>
        SubscribesNone(batch, [WgDone]);
      case DialFails =>
        SubscribesNone(batch, [ProducerOpened(frame), ProducerClosed(frame), WgDone]);
      case WriteFails =>
        SubscribesConcat(batch, Head(batch, frame), Teardown(frame));
      case Ready =>
        ReadySubscribes(batch, env, frame, res);
    }
  }

  lemma {:induction false} ReadySubscribes(batch: seq<string>, env: Env, frame: nat, res: Resources)
    requires 0 < |env.setups| && env.setups[0].Ready?
    decreases |env.ticks|, 2
    ensures SubscribesOnce(batch, Worker(batch, env, frame, res).trace)
  {
    UnfoldReady(batch, env, frame, res);
    var e := env.(setups := env.setups[1..]);
    var head := Head(batch, frame);
    HeadSubscribes(batch, frame);
    SubscribesNone(batch, Teardown(frame));
    var loop := ReadLoop(batch, e, frame, Open(res, frame));
    ReadLoopSubscribes(batch, e, frame, Open(res, frame));
    SubscribesConcat(batch, head, loop.trace);
    if loop.status.Exited? {
      SubscribesConcat(batch, head + loop.trace, Teardown(frame));
    }
  }

  lemma {:induction false} ReadLoopSubscribes(batch: seq<string>, env: Env, frame: nat, res: Resources)
    decreases |env.ticks|, 1
    ensures SubscribesOnce(batch, ReadLoop(batch, env, frame, res).trace)
  {
    if |env.ticks| > 0 {
      match env.ticks[0]
      case Cancel =>
        SubscribesNone(batch, [CancelObserved(AtRead)]);
      case ReadError =>
        ReadErrorSubscribes(batch, env, frame, res);
      case Message(_) =>
        MessageSubscribes(batch, env, frame, res);
    }
  }

  lemma {:induction false} ReadErrorSubscribes(batch: seq<string>, env: Env, frame: nat, res: Resources)
    requires 0 < |env.ticks| && env.ticks[0].ReadError?
    decreases |env.ticks|, 0
    ensures SubscribesOnce(batch, ReadLoop(batch, env, frame, res).trace)
  {
    var e := env.(ticks := env.ticks[1..]);
    UnfoldReadError(batch, env, frame, res);
    ReconnectSubscribes(batch, e, frame, res);
    SubscribesNone(batch, [ReadFailed]);
    SubscribesConcat(batch, [ReadFailed], Reconnect(batch, e, frame, res).trace);
  }

  lemma {:induction false} MessageSubscribes(batch: seq<string>, env: Env, frame: nat, res: Resources)
    requires 0 < |env.ticks| && env.ticks[0].Message?
    decreases |env.ticks|, 0
    ensures SubscribesOnce(batch, ReadLoop(batch, env, frame, res).trace)
  {
    var msg := env.ticks[0].payload;
    UnfoldMessage(batch, env, frame, res);
    var f := Forward(msg, env.sink);
    var e' := env.(ticks := env.ticks[1..], sink := env.sink[f.used..]);
    ForwardingQuiet(batch, msg, f.steps);
    if f.complete {
      ReadLoopSubscribes(batch, e', frame, res);
      SubscribesConcat(batch, [Received(msg)] + Lift(f.steps), ReadLoop(batch, e', frame, res).trace);
    }
  }

  lemma {:induction false} ReconnectSubscribes(batch: seq<string>, env: Env, frame: nat, res: Resources)
    decreases |env.ticks|, 4
    ensures SubscribesOnce(batch, Reconnect(batch, env, frame, res).trace)
  {
    UnfoldReconnect(batch, env, frame, res);
    var p := Pause(ReconnectDelay);
    if |env.checks| == 0 {
      SubscribesNone(batch, [p]);
    } else if env.checks[0] {
      SubscribesNone(batch, [p, CancelObserved(AtReconnect)]);
    } else {
      var e := env.(checks := env.checks[1..]);
      var added := res.(wg := res.wg + 1);
      WorkerSubscribes(batch, e, frame + 1, added);
      SubscribesNone(batch, [p, WgAdd]);
      SubscribesConcat(batch, [p, WgAdd], Worker(batch, e, frame + 1, added).trace);
    }
  }

  /** A message read and forwarded touches neither connections, producers,
      the wait group, nor the context. */
  lemma ForwardingQuiet(batch: seq<string>, msg: Bytes, steps: seq<Step>)
    ensures var pre := [Received(msg)] + Lift(steps);
            && Count(pre, IsTeardown) == 0 && Count(pre, IsWgAdd) == 0 && Opened(pre) == {}
            && SubscribesOnce(batch, pre)
            && FixedPauses(pre) && Count(pre, IsPause) == 0 && Count(pre, IsReadFailed) == 0
            && NoCancel(pre) && QuietAfterCancel(pre)
            && Recovering(pre, Steady) == Some(Steady)
  {
    var pre := [Received(msg)] + Lift(steps);
    assert forall i :: 0 <= i < |pre| ==> pre[i].Received? || pre[i].Publish? by {
      forall i | 0 < i < |pre|
        ensures pre[i].Publish?
      {
        assert pre[i] == Lift(steps)[i - 1];
      }
    }
    CountNone(pre, IsTeardown);
    OpenedNone(pre);
    SubscribesNone(batch, pre);
    ReconnectCountsNone(pre);
  }

  /* Reconnections. */

  /** Where a chain stands in handling a failed read: nothing under way
      (`Steady`), a read has just failed (`Failed`), the reconnection sleep
      is over (`Slept`), or the check after it found the context live and
      wg.Add was made (`Added`). */
  datatype Recovery = Steady | Failed | Slept | Added

  /** One action checked against the reconnection order, from `q`; None when
      the action breaks it. A failed read is followed by the ReconnectDelay
      sleep, the sleep by the outcome of the context check -- the cancelled
      context observed, or wg.Add -- and wg.Add by the first act of the new
      worker. Sleeps, wg.Add and the observation after a sleep happen nowhere
      else. */
  function Recover(q: Recovery, a: Action): Option<Recovery>
  {
    match q
    case Steady =>
      if a.ReadFailed? then Some(Failed)
      else if a.Pause? || a.WgAdd? || a == CancelObserved(AtReconnect) then None
      else Some(Steady)
    case Failed =>
      if a == Pause(ReconnectDelay) then Some(Slept) else None
    case Slept =>
      if a.WgAdd? then Some(Added)
      else if a == CancelObserved(AtReconnect) then Some(Steady)
      else None
    case Added =>
      if a.ProducerOpened? || a.WgDone? then Some(Steady) else None
  }

  /** `t` checked against the reconnection order from `q`: None when one of
      its actions breaks it, else where the chain stands after it. */
  function Recovering(t: seq<Action>, q: Recovery): Option<Recovery>
  {
    if |t| == 0 then Some(q)
    else
      match Recover(q, t[0])
      case None => None
      case Some(q') => Recovering(t[1..], q')
  }

  lemma {:induction false} RecoveringConcat(a: seq<Action>, b: seq<Action>, q: Recovery)
    ensures Recovering(a + b, q) == if Recovering(a, q).None? then None else Recovering(b, Recovering(a, q).value)
  {
    if |a| == 0 {
      assert a + b == b;
    } else {
      assert (a + b)[0] == a[0];
      assert (a + b)[1..] == a[1..] + b;
      match Recover(q, a[0])
      case None =>
      case Some(q') =>
        RecoveringConcat(a[1..], b, q');
    }
  }

  /** Where a chain may stop in the reconnection order: with nothing under
      way, waiting on the context check after its sleep, or waiting on the
      set-up of the worker it has just added. */
  predicate RecoveryEnd(q: Recovery, s: Status)
  {
    q == Steady || (q == Slept && s == Pending(CheckOracle)) || (q == Added && s == Pending(SetupOracle))
  }

  /** How a chain handles read failures. `inside` is 1 for the trace of
      handleReconnection itself, whose triggering read failure lies outside
      it, and 0 for a worker or read loop. The trace keeps the reconnection
      order (Recover) and ends where a chain may stop; every sleep lasts
      ReconnectDelay seconds; and by count, every read failure has one
      sleep, and then one wg.Add, unless the check after the sleep found the
      context cancelled or, at the end of a finite run, has not answered. */
  ghost predicate ReconnectsOnReadError(r: Run, inside: nat)
  {
    && FixedPauses(r.trace)
    && Count(r.trace, IsPause) == Count(r.trace, IsReadFailed) + inside
    && Count(r.trace, IsReadFailed) + inside
       == Count(r.trace, IsWgAdd) + Ind(r.status == Exited(CancelledAtReconnect)) + Ind(r.status == Pending(CheckOracle))
    && var from := if inside == 0 then Steady else Failed;
       Recovering(r.trace, from).Some? && RecoveryEnd(Recovering(r.trace, from).value, r.status)
  }

  lemma ReconnectCountsConcat(a: seq<Action>, b: seq<Action>)
    requires FixedPauses(a) && FixedPauses(b)
    ensures FixedPauses(a + b)
    ensures Count(a + b, IsPause) == Count(a, IsPause) + Count(b, IsPause)
    ensures Count(a + b, IsReadFailed) == Count(a, IsReadFailed) + Count(b, IsReadFailed)
    ensures Count(a + b, IsWgAdd) == Count(a, IsWgAdd) + Count(b, IsWgAdd)
  {
    CountConcat(a, b, IsPause);
    CountConcat(a, b, IsReadFailed);
    CountConcat(a, b, IsWgAdd);
    var t := a + b;
    forall i | 0 <= i < |t| && t[i].Pause?
      ensures t[i].seconds == ReconnectDelay
    {
      if i >= |a| {
        assert t[i] == b[i - |a|];
      }
    }
  }

  lemma {:induction false} RecoveringQuiet(t: seq<Action>)
    requires forall i :: 0 <= i < |t| ==>
               !t[i].Pause? && !t[i].ReadFailed? && !t[i].WgAdd? && t[i] != CancelObserved(AtReconnect)
    ensures Recovering(t, Steady) == Some(Steady)
  {
    if |t| > 0 {
      RecoveringQuiet(t[1..]);
    }
  }

  /** A trace without sleeps, read failures, wg.Add and observations after a
      sleep. */
  lemma ReconnectCountsNone(t: seq<Action>)
    requires forall i :: 0 <= i < |t| ==>
               !t[i].Pause? && !t[i].ReadFailed? && !t[i].WgAdd? && t[i] != CancelObserved(AtReconnect)
    ensures FixedPauses(t)
    ensures Count(t, IsPause) == 0 && Count(t, IsReadFailed) == 0 && Count(t, IsWgAdd) == 0
    ensures Recovering(t, Steady) == Some(Steady)
  {
    CountNone(t, IsPause);
    CountNone(t, IsReadFailed);
    CountNone(t, IsWgAdd);
    RecoveringQuiet(t);
  }

  /** A worker's first act is opening its producer, or wg.Done when the
      producer cannot be made; with no set-up answer it does nothing. */
  lemma WorkerStart(batch: seq<string>, env: Env, frame: nat, res: Resources)
    ensures var r := Worker(batch, env, frame, res);
            && (|r.trace| == 0 ==> r.status == Pending(SetupOracle))
            && (0 < |r.trace| ==> r.trace[0].ProducerOpened? || r.trace[0].WgDone?)
  {
    var r := Worker(batch, env, frame, res);
    if 0 < |env.setups| && (env.setups[0].WriteFails? || env.setups[0].Ready?) {
      if env.setups[0].Ready? {
        UnfoldReady(batch, env, frame, res);
      }
      assert r.trace[0] == Head(batch, frame)[0];
    }
  }

  /** After wg.Add the new worker's first act puts the chain back to steady. */
  lemma AddedWorker(t: seq<Action>)
    requires 0 < |t| && (t[0].ProducerOpened? || t[0].WgDone?)
    ensures Recovering(t, Added) == Recovering(t, Steady)
  {
  }

  /** Only a read error leads to a reconnection: every read failure is followed
      at once by a sleep of ReconnectDelay seconds, the sleep by the context
      check's outcome, and a live context by wg.Add and then the new worker.
      Producer, dial and subscription failures make no reconnection. */
  lemma {:induction false} WorkerReconnects(batch: seq<string>, env: Env, frame: nat, res: Resources)
    decreases |env.ticks|, 3
    ensures ReconnectsOnReadError(Worker(batch, env, frame, res), 0)
  {
    if |env.setups| == 0 {
      ReconnectCountsNone([]);
    } else {
      var head := Head(batch, frame);
      ReconnectCountsNone(head);
      ReconnectCountsNone(Teardown(frame));
      match env.setups[0]
      case InitFails =>
        ReconnectCountsNone([WgDone]);
      case DialFails =>
        ReconnectCountsNone([ProducerOpened(frame), ProducerClosed(frame), WgDone]);
      case WriteFails =>
        ReconnectCountsConcat(head, Teardown(frame));
        RecoveringConcat(head, Teardown(frame), Steady);
      case Ready =>
        ReadyReconnects(batch, env, frame, res);
    }
  }

  lemma {:induction false} ReadyReconnects(batch: seq<string>, env: Env, frame: nat, res: Resources)
    requires 0 < |env.setups| && env.setups[0].Ready?
    decreases |env.ticks|, 2
    ensures ReconnectsOnReadError(Worker(batch, env, frame, res), 0)
  {
    UnfoldReady(batch, env, frame, res);
    var e := env.(setups := env.setups[1..]);
    var head := Head(batch, frame);
    ReconnectCountsNone(head);
    ReconnectCountsNone(Teardown(frame));
    var loop := ReadLoop(batch, e, frame, Open(res, frame));
    ReadLoopReconnects(batch, e, frame, Open(res, frame));
    ReconnectCountsConcat(head, loop.trace);
    RecoveringConcat(head, loop.trace, Steady);
    if loop.status.Exited? {
      ReconnectCountsConcat(head + loop.trace, Teardown(frame));
      RecoveringConcat(head + loop.trace, Teardown(frame), Steady);
    }
  }

  lemma {:induction false} ReadLoopReconnects(batch: seq<string>, env: Env, frame: nat, res: Resources)
    decreases |env.ticks|, 1
    ensures ReconnectsOnReadError(ReadLoop(batch, env, frame, res), 0)
  {
    if |env.ticks| == 0 {
      ReconnectCountsNone([]);
    } else {
      match env.ticks[0]
      case Cancel =>
        ReconnectCountsNone([CancelObserved(AtRead)]);
      case ReadError =>
        ReadErrorReconnects(batch, env, frame, res);
      case Message(_) =>
        MessageReconnects(batch, env, frame, res);
    }
  }

  lemma {:induction false} ReadErrorReconnects(batch: seq<string>, env: Env, frame: nat, res: Resources)
    requires 0 < |env.ticks| && env.ticks[0].ReadError?
    decreases |env.ticks|, 0
    ensures ReconnectsOnReadError(ReadLoop(batch, env, frame, res), 0)
  {
    var e := env.(ticks := env.ticks[1..]);
    UnfoldReadError(batch, env, frame, res);
    var rc := Reconnect(batch, e, frame, res);
    ReconnectReconnects(batch, e, frame, res);
    CountOne(ReadFailed, IsReadFailed);
    CountOne(ReadFailed, IsPause);
    CountOne(ReadFailed, IsWgAdd);
    ReconnectCountsConcat([ReadFailed], rc.trace);
    assert Recovering([ReadFailed], Steady) == Some(Failed) by {
      assert [ReadFailed][1..] == [];
    }
    RecoveringConcat([ReadFailed], rc.trace, Steady);
  }

  lemma {:induction false} MessageReconnects(batch: seq<string>, env: Env, frame: nat, res: Resources)
    requires 0 < |env.ticks| && env.ticks[0].Message?
    decreases |env.ticks|, 0
    ensures ReconnectsOnReadError(ReadLoop(batch, env, frame, res), 0)
  {
    var msg := env.ticks[0].payload;
    UnfoldMessage(batch, env, frame, res);
    var f := Forward(msg, env.sink);
    var e' := env.(ticks := env.ticks[1..], sink := env.sink[f.used..]);
    var pre := [Received(msg)] + Lift(f.steps);
    ForwardingQuiet(batch, msg, f.steps);
    if f.complete {
      var next := ReadLoop(batch, e', frame, res);
      ReadLoopReconnects(batch, e', frame, res);
      ReconnectCountsConcat(pre, next.trace);
      RecoveringConcat(pre, next.trace, Steady);
    }
  }

  /** The reconnection sleep moves a failed chain to Slept. */
  lemma SleepRecovers()
    ensures Recovering([Pause(ReconnectDelay)], Failed) == Some(Slept)
  {
    assert [Pause(ReconnectDelay)][1..] == [];
  }

  /** After the sleep, the check's outcome decides the next state. */
  lemma SleepThenRecovers(seen: Action)
    ensures Recovering([Pause(ReconnectDelay), seen], Failed) == Recover(Slept, seen)
  {
    var t := [Pause(ReconnectDelay), seen];
    assert t[1..] == [seen];
    assert [seen][1..] == [];
    assert Recovering(t, Failed) == Recovering([seen], Slept);
    match Recover(Slept, seen)
    case None =>
    case Some(q) =>
      assert Recovering([seen], Slept) == Recovering([], q);
  }

  /** handleReconnection from its sleep on: the sleep, then the check's
      outcome, then the new worker. */
  lemma {:induction false} ReconnectReconnects(batch: seq<string>, env: Env, frame: nat, res: Resources)
    decreases |env.ticks|, 4
    ensures ReconnectsOnReadError(Reconnect(batch, env, frame, res), 1)
  {
    UnfoldReconnect(batch, env, frame, res);
    var p := Pause(ReconnectDelay);
    var r := Reconnect(batch, env, frame, res);
    SleepRecovers();
    if |env.checks| == 0 {
      assert r.trace == [p] && r.status == Pending(CheckOracle);
      CountOne(p, IsPause);
      CountOne(p, IsReadFailed);
      CountOne(p, IsWgAdd);
    } else {
      var seen := if env.checks[0] then CancelObserved(AtReconnect) else WgAdd;
      SleepThenRecovers(seen);
      CountTwo(p, seen, IsPause);
      CountTwo(p, seen, IsReadFailed);
      CountTwo(p, seen, IsWgAdd);
      if !env.checks[0] {
        var e := env.(checks := env.checks[1..]);
        var added := res.(wg := res.wg + 1);
        var w := Worker(batch, e, frame + 1, added);
        assert r.trace == [p, WgAdd] + w.trace && r.status == w.status;
        WorkerReconnects(batch, e, frame + 1, added);
        ReconnectCountsConcat([p, WgAdd], w.trace);
        RecoveringConcat([p, WgAdd], w.trace, Failed);
        WorkerStart(batch, e, frame + 1, added);
        if 0 < |w.trace| {
          AddedWorker(w.trace);
        }
      }
    }
  }

  /** The recovery state an accepted action leaves: it depends on that
      action alone. */
  function After(a: Action): Recovery
  {
    if a.ReadFailed? then Failed
    else if a.Pause? then Slept
    else if a.WgAdd? then Added
    else Steady
  }

  lemma RecoverAfter(q: Recovery, a: Action)
    requires Recover(q, a).Some?
    ensures Recover(q, a) == Some(After(a))
  {
  }

  /** An accepted trace is accepted step by step: each action is accepted in
      the state its predecessor left, and the final state is the one the
      last action leaves. */
  lemma {:induction false} RecoveryOrder(t: seq<Action>, q: Recovery)
    requires Recovering(t, q).Some?
    ensures 0 < |t| ==> Recover(q, t[0]).Some?
    ensures forall i :: 0 <= i < |t| - 1 ==> Recover(After(t[i]), t[i + 1]).Some?
    ensures 0 < |t| ==> Recovering(t, q) == Some(After(t[|t| - 1]))
  {
    if 0 < |t| {
      var q' := Recover(q, t[0]).value;
      RecoverAfter(q, t[0]);
      RecoveryOrder(t[1..], q');
      forall i | 0 <= i < |t| - 1
        ensures Recover(After(t[i]), t[i + 1]).Some?
      {
        assert t[i + 1] == t[1..][i];
        if 0 < i {
          assert t[i] == t[1..][i - 1];
        }
      }
      if 1 < |t| {
        assert t[|t| - 1] == t[1..][|t| - 2];
      }
    }
  }

  /** The order of a reconnection on an accepted trace, position by
      position: a read failure is followed by the fixed sleep, the sleep by
      the check's wg.Add or cancellation, a wg.Add by the new worker's first
      action; and each of those is preceded by what leads to it. */
  lemma RecoveryInOrder(t: seq<Action>, q: Recovery)
    requires Recovering(t, q).Some?
    ensures forall i :: 0 <= i < |t| - 1 && t[i].ReadFailed? ==> t[i + 1] == Pause(ReconnectDelay)
    ensures forall i :: 0 <= i < |t| - 1 && t[i].Pause? ==> t[i + 1].WgAdd? || t[i + 1] == CancelObserved(AtReconnect)
    ensures forall i :: 0 <= i < |t| - 1 && t[i].WgAdd? ==> t[i + 1].ProducerOpened? || t[i + 1].WgDone?
    ensures forall i :: 0 < i < |t| && t[i].Pause? ==> t[i - 1].ReadFailed?
    ensures forall i :: 0 < i < |t| && (t[i].WgAdd? || t[i] == CancelObserved(AtReconnect)) ==> t[i - 1].Pause?
  {
    RecoveryOrder(t, q);
    forall i | 0 < i < |t|
      ensures Recover(After(t[i - 1]), t[i]).Some?
    {
      assert i - 1 < |t| - 1;
    }
  }

  /** On a worker's trace, handleReconnection runs in order (RecoveryInOrder
      from the start), and a finite run cuts it short only where it waits on
      an oracle: it never ends right after a read failure, ends right after
      the sleep only while the check has not answered, and right after a
      wg.Add only while the new worker's set-up has not answered. */
  lemma WorkerRecoversInOrder(batch: seq<string>, env: Env, frame: nat, res: Resources)
    ensures var t := Worker(batch, env, frame, res).trace;
            && (forall i :: 0 <= i < |t| - 1 && t[i].ReadFailed? ==> t[i + 1] == Pause(ReconnectDelay))
            && (forall i :: 0 <= i < |t| - 1 && t[i].Pause? ==> t[i + 1].WgAdd? || t[i + 1] == CancelObserved(AtReconnect))
            && (forall i :: 0 <= i < |t| - 1 && t[i].WgAdd? ==> t[i + 1].ProducerOpened? || t[i + 1].WgDone?)
            && (forall i :: 0 < i < |t| && t[i].Pause? ==> t[i - 1].ReadFailed?)
            && (forall i :: 0 < i < |t| && (t[i].WgAdd? || t[i] == CancelObserved(AtReconnect)) ==> t[i - 1].Pause?)
    ensures var r := Worker(batch, env, frame, res);
            0 < |r.trace| ==>
              && !r.trace[|r.trace| - 1].ReadFailed?
              && (r.trace[|r.trace| - 1].Pause? ==> r.status == Pending(CheckOracle))
              && (r.trace[|r.trace| - 1].WgAdd? ==> r.status == Pending(SetupOracle))
  {
    var r := Worker(batch, env, frame, res);
    WorkerReconnects(batch, env, frame, res);
    RecoveryOrder(r.trace, Steady);
    RecoveryInOrder(r.trace, Steady);
  }

  /* Cancellation. */

  /** A chain observes the cancelled context at most at its end: after the
      observation only closes and wg.Done follow. It ends as cancelled at the
      top of a read loop exactly when its trace holds that observation, and
      as cancelled after a reconnection sleep exactly when it holds that
      one. */
  ghost predicate StopsOnCancel(r: Run)
  {
    && QuietAfterCancel(r.trace)
    && (r.status == Exited(CancelledAtRead) <==> CancelObserved(AtRead) in r.trace)
    && (r.status == Exited(CancelledAtReconnect) <==> CancelObserved(AtReconnect) in r.trace)
  }

  /** Cancellation is seen only at the top of the read loop and after the
      reconnection sleep, and once seen no dial, read or send follows. */
  lemma {:induction false} WorkerStopsOnCancel(batch: seq<string>, env: Env, frame: nat, res: Resources)
    decreases |env.ticks|, 3
    ensures StopsOnCancel(Worker(batch, env, frame, res))
  {
    if |env.setups| > 0 && env.setups[0].Ready? {
      ReadyStopsOnCancel(batch, env, frame, res);
    }
  }

  lemma {:induction false} ReadyStopsOnCancel(batch: seq<string>, env: Env, frame: nat, res: Resources)
    requires 0 < |env.setups| && env.setups[0].Ready?
    decreases |env.ticks|, 2
    ensures StopsOnCancel(Worker(batch, env, frame, res))
  {
    UnfoldReady(batch, env, frame, res);
    var e := env.(setups := env.setups[1..]);
    var head := Head(batch, frame);
    var loop := ReadLoop(batch, e, frame, Open(res, frame));
    ReadLoopStopsOnCancel(batch, e, frame, Open(res, frame));
    QuietConcat(head, loop.trace);
    assert CancelObserved(AtRead) !in head && CancelObserved(AtReconnect) !in head;
    if loop.status.Exited? {
      QuietConcat(head + loop.trace, Teardown(frame));
      assert CancelObserved(AtRead) !in Teardown(frame) && CancelObserved(AtReconnect) !in Teardown(frame);
    }
  }

  lemma {:induction false} ReadLoopStopsOnCancel(batch: seq<string>, env: Env, frame: nat, res: Resources)
    decreases |env.ticks|, 1
    ensures StopsOnCancel(ReadLoop(batch, env, frame, res))
  {
    if |env.ticks| > 0 {
      match env.ticks[0]
      case Cancel =>
      case ReadError =>
        ReadErrorStopsOnCancel(batch, env, frame, res);
      case Message(_) =>
        MessageStopsOnCancel(batch, env, frame, res);
    }
  }

  lemma {:induction false} ReadErrorStopsOnCancel(batch: seq<string>, env: Env, frame: nat, res: Resources)
    requires 0 < |env.ticks| && env.ticks[0].ReadError?
    decreases |env.ticks|, 0
    ensures StopsOnCancel(ReadLoop(batch, env, frame, res))
  {
    var e := env.(ticks := env.ticks[1..]);
    UnfoldReadError(batch, env, frame, res);
    ReconnectStopsOnCancel(batch, e, frame, res);
    QuietConcat([ReadFailed], Reconnect(batch, e, frame, res).trace);
  }

  lemma {:induction false} MessageStopsOnCancel(batch: seq<string>, env: Env, frame: nat, res: Resources)
    requires 0 < |env.ticks| && env.ticks[0].Message?
    decreases |env.ticks|, 0
    ensures StopsOnCancel(ReadLoop(batch, env, frame, res))
  {
    var msg := env.ticks[0].payload;
    UnfoldMessage(batch, env, frame, res);
    var f := Forward(msg, env.sink);
    var e' := env.(ticks := env.ticks[1..], sink := env.sink[f.used..]);
    ForwardingQuiet(batch, msg, f.steps);
    assert CancelObserved(AtRead) !in [Received(msg)] + Lift(f.steps);
    assert CancelObserved(AtReconnect) !in [Received(msg)] + Lift(f.steps);
    if f.complete {
      ReadLoopStopsOnCancel(batch, e', frame, res);
      QuietConcat([Received(msg)] + Lift(f.steps), ReadLoop(batch, e', frame, res).trace);
    }
  }

  lemma {:induction false} ReconnectStopsOnCancel(batch: seq<string>, env: Env, frame: nat, res: Resources)
    decreases |env.ticks|, 4
    ensures StopsOnCancel(Reconnect(batch, env, frame, res))
  {
    UnfoldReconnect(batch, env, frame, res);
    if 0 < |env.checks| && !env.checks[0] {
      var e := env.(checks := env.checks[1..]);
      var added := res.(wg := res.wg + 1);
      WorkerStopsOnCancel(batch, e, frame + 1, added);
      QuietConcat([Pause(ReconnectDelay), WgAdd], Worker(batch, e, frame + 1, added).trace);
    }
  }

  /* Forwarding. */

  /** Payloads of the messages read in `t`, in order. */
  function ReceivedPayloads(t: seq<Action>): seq<Bytes>
  {
    if |t| == 0 then [] else (if t[0].Received? then [t[0].payload] else []) + ReceivedPayloads(t[1..])
  }

  /** Payloads of the messages among `ticks`, in order. */
  function Messages(ticks: seq<Tick>): seq<Bytes>
  {
    if |ticks| == 0 then [] else (if ticks[0].Message? then [ticks[0].payload] else []) + Messages(ticks[1..])
  }

  lemma {:induction false} ReceivedConcat(a: seq<Action>, b: seq<Action>)
    ensures ReceivedPayloads(a + b) == ReceivedPayloads(a) + ReceivedPayloads(b)
  {
    if |a| == 0 {
      assert a + b == b;
    } else {
      assert (a + b)[1..] == a[1..] + b;
      ReceivedConcat(a[1..], b);
    }
  }

  /** Where the forwarding of the message read last stands: settled, having
      had every send and sleep it was going to get (`Idle`); after `sent`
      failed sends of `msg`, with its next send due (`Busy`); or after the
      retry loop's attempt `attempt` failed, with that attempt's sleep due
      (`Backoff`). */
  datatype Progress = Idle | Busy(msg: Bytes, sent: nat) | Backoff(msg: Bytes, attempt: nat)

  /** One action checked against the read loop's forwarding discipline, from
      `p`; None when the action breaks it. A read -- a message, a read error,
      the cancelled context -- happens only once the previous message is
      settled. A message read is sent at once. While it is unsettled only its
      own sends and the retry sleeps follow. A send the sink accepts settles
      it. A failed first send is followed at once by the retry loop's first
      send; a failed retry send, attempt k of the loop, by a sleep of
      k * BackoffUnit seconds, after which the next attempt is due, or, after
      attempt MaxRetry (the MaxAttempts-th send), the message is settled.
      Nothing is sent and nobody sleeps while settled. */
  function Next(p: Progress, a: Action): Option<Progress>
  {
    match p
    case Idle =>
      if a.Received? then Some(Busy(a.payload, 0))
      else if a.Publish? then None
      else Some(Idle)
    case Busy(m, n) =>
      if !a.Publish? || !a.step.Send? || a.step.rec != Produce(m) then None
      else if a.step.ok then Some(Idle)
      else if n == 0 then Some(Busy(m, 1))
      else Some(Backoff(m, n))
    case Backoff(m, k) =>
      if a != Publish(Sleep(BackoffUnit * k)) then None
      else if k == MaxRetry then Some(Idle)
      else Some(Busy(m, k + 1))
  }

  /** `t` replayed from `p`: None when one of its actions breaks the
      discipline, else where forwarding stands after it. */
  function Replay(t: seq<Action>, p: Progress): Option<Progress>
  {
    if |t| == 0 then Some(p)
    else
      match Next(p, t[0])
      case None => None
      case Some(q) => Replay(t[1..], q)
  }

  lemma {:induction false} ReplayConcat(a: seq<Action>, b: seq<Action>, p: Progress)
    ensures Replay(a + b, p) == if Replay(a, p).None? then None else Replay(b, Replay(a, p).value)
  {
    if |a| == 0 {
      assert a + b == b;
    } else {
      assert (a + b)[0] == a[0];
      assert (a + b)[1..] == a[1..] + b;
      match Next(p, a[0])
      case None =>
      case Some(q) =>
        ReplayConcat(a[1..], b, q);
    }
  }

  /** A trace that neither reads a message nor publishes leaves a settled
      forwarding settled. */
  lemma {:induction false} ReplayQuiet(t: seq<Action>)
    requires forall i :: 0 <= i < |t| ==> !t[i].Received? && !t[i].Publish?
    ensures Replay(t, Idle) == Some(Idle)
    ensures ReceivedPayloads(t) == []
  {
    if |t| > 0 {
      ReplayQuiet(t[1..]);
    }
  }

  /** The publisher's steps receive nothing. */
  lemma {:induction false} LiftReceivesNothing(steps: seq<Step>)
    ensures ReceivedPayloads(Lift(steps)) == []
  {
    if |steps| > 0 {
      assert Lift(steps)[1..] == Lift(steps[1..]);
      LiftReceivesNothing(steps[1..]);
    }
  }

  lemma {:induction false} LiftConcat(a: seq<Step>, b: seq<Step>)
    ensures Lift(a + b) == Lift(a) + Lift(b)
  {
    if |a| == 0 {
      assert a + b == b;
    } else {
      assert (a + b)[1..] == a[1..] + b;
      LiftConcat(a[1..], b);
    }
  }

  /** A message read leaves its first send due. */
  lemma ReceivedReplay(msg: Bytes, t: seq<Action>)
    ensures Replay([Received(msg)] + t, Idle) == Replay(t, Busy(msg, 0))
  {
    assert ([Received(msg)] + t)[1..] == t;
  }

  /** A failed first send leaves the retry loop's first send due, with no
      sleep. */
  lemma FirstFailReplay(msg: Bytes, t: seq<Action>)
    ensures Replay([Publish(Send(Produce(msg), false))] + t, Busy(msg, 0)) == Replay(t, Busy(msg, 1))
  {
    assert ([Publish(Send(Produce(msg), false))] + t)[1..] == t;
  }

  /** A failed retry send and its sleep leave the next attempt due, or the
      message settled after the last one. */
  lemma FailedAttemptReplay(msg: Bytes, attempt: nat)
    requires 1 <= attempt <= MaxRetry
    ensures Replay([Publish(Send(Produce(msg), false)), Publish(Sleep(BackoffUnit * attempt))], Busy(msg, attempt))
         == Some(if attempt == MaxRetry then Idle else Busy(msg, attempt + 1))
  {
    var t := [Publish(Send(Produce(msg), false)), Publish(Sleep(BackoffUnit * attempt))];
    var q := if attempt == MaxRetry then Idle else Busy(msg, attempt + 1);
    assert Next(Busy(msg, attempt), t[0]) == Some(Backoff(msg, attempt));
    assert Next(Backoff(msg, attempt), t[1]) == Some(q);
    assert t[1..] == [t[1]];
    assert Replay([t[1]], Backoff(msg, attempt)) == Replay([], q);
  }

  /** A failed retry attempt hands over to the loop's next attempt. */
  lemma RetryStepReplay(msg: Bytes, sink: seq<bool>, attempt: nat)
    requires 1 <= attempt <= MaxRetry && 0 < |sink| && !sink[0]
    ensures var r := RetryFrom(msg, sink, attempt);
            var rest := RetryFrom(msg, sink[1..], attempt + 1);
            && r.used == 1 + rest.used && r.status == rest.status
            && Replay(Lift(r.steps), Busy(msg, attempt))
               == if attempt == MaxRetry then Some(Idle) else Replay(Lift(rest.steps), Busy(msg, attempt + 1))
  {
    var r := RetryFrom(msg, sink, attempt);
    var rest := RetryFrom(msg, sink[1..], attempt + 1);
    var head := [Send(Produce(msg), false), Sleep(BackoffUnit * attempt)];
    assert r.steps == head + rest.steps;
    LiftConcat(head, rest.steps);
    assert Lift(head) == [Publish(head[0]), Publish(head[1])];
    FailedAttemptReplay(msg, attempt);
    ReplayConcat(Lift(head), Lift(rest.steps), Busy(msg, attempt));
    if attempt == MaxRetry {
      assert rest.steps == [];
    }
  }

  /** The retry loop from attempt `attempt` on keeps the discipline once
      `attempt` sends of the message have failed: it leaves the message
      settled, or, when the sink stops answering, with the next send due. */
  lemma {:induction false} RetryReplay(msg: Bytes, sink: seq<bool>, attempt: nat)
    requires 1 <= attempt <= MaxRetry
    decreases MaxRetry - attempt
    ensures var r := RetryFrom(msg, sink, attempt);
            Replay(Lift(r.steps), Busy(msg, attempt))
              == Some(if r.status.Unanswered? then Busy(msg, attempt + r.used) else Idle)
  {
    var r := RetryFrom(msg, sink, attempt);
    if |sink| == 0 {
      assert r.steps == [] && r.status.Unanswered? && r.used == 0;
    } else if sink[0] {
      assert r.steps == [Send(Produce(msg), true)] && r.status.Delivered?;
      assert Lift(r.steps)[1..] == [];
    } else {
      RetryStepReplay(msg, sink, attempt);
      if attempt < MaxRetry {
        RetryReplay(msg, sink[1..], attempt + 1);
      } else {
        assert r.status.GaveUp?;
      }
    }
  }

  /** One message read and forwarded: it is received once, and its sends and
      sleeps keep the discipline; a forwarding the sink answered to the end
      leaves the message settled, one it did not leaves a send due. */
  lemma ForwardedMessage(msg: Bytes, sink: seq<bool>)
    ensures var f := Forward(msg, sink);
            var pre := [Received(msg)] + Lift(f.steps);
            && ReceivedPayloads(pre) == [msg]
            && Replay(pre, Idle).Some?
            && (f.complete ==> Replay(pre, Idle) == Some(Idle))
            && (!f.complete ==> Replay(pre, Idle).value.Busy?)
  {
    var f := Forward(msg, sink);
    var pre := [Received(msg)] + Lift(f.steps);
    assert pre[1..] == Lift(f.steps);
    LiftReceivesNothing(f.steps);
    ReceivedReplay(msg, Lift(f.steps));
    if 0 < |sink| {
      if sink[0] {
        assert Lift(f.steps)[1..] == [];
      } else {
        var r := RetryProduce(msg, sink[1..]);
        RetryProduceFromFirst(msg, sink[1..]);
        LiftConcat([Send(Produce(msg), false)], r.steps);
        FirstFailReplay(msg, Lift(r.steps));
        RetryReplay(msg, sink[1..], 1);
      }
    }
  }

  /** Under the discipline, a message read is followed at once by a send of
      that message, unless the trace ends there. */
  lemma {:induction false} ReceivedThenSent(t: seq<Action>, p: Progress)
    requires Replay(t, p).Some?
    ensures forall i :: 0 <= i < |t| - 1 && t[i].Received? ==>
              t[i + 1].Publish? && t[i + 1].step.Send? && t[i + 1].step.rec == Produce(t[i].payload)
  {
    if |t| > 0 {
      var q := Next(p, t[0]).value;
      ReceivedThenSent(t[1..], q);
      forall i | 1 <= i < |t| - 1 && t[i].Received?
        ensures t[i + 1].Publish? && t[i + 1].step.Send? && t[i + 1].step.rec == Produce(t[i].payload)
      {
        assert t[i] == t[1..][i - 1] && t[i + 1] == t[1..][i];
      }
      if 1 < |t| && t[0].Received? {
        assert t[1..][0] == t[1];
        assert Next(q, t[1]).Some?;
      }
    }
  }

  /** A read: a message, a read error, or the context found cancelled at the
      top of the read loop. */
  predicate IsRead(a: Action)
  {
    a.Received? || a.ReadFailed? || a == CancelObserved(AtRead)
  }

  /** Under the discipline, every read happens with the message read before
      it settled: by Next, its sends ended in an accepted one or in the
      MaxAttempts-th and the sleep after it. */
  lemma {:induction false} ReadsWhenSettled(t: seq<Action>, p: Progress)
    requires Replay(t, p).Some?
    ensures forall i :: 0 <= i < |t| && IsRead(t[i]) ==> Replay(t[..i], p) == Some(Idle)
  {
    if |t| > 0 {
      var q := Next(p, t[0]).value;
      ReadsWhenSettled(t[1..], q);
      forall i | 0 <= i < |t| && IsRead(t[i])
        ensures Replay(t[..i], p) == Some(Idle)
      {
        if i == 0 {
          assert t[..0] == [];
        } else {
          assert t[..i][0] == t[0];
          assert t[..i][1..] == t[1..][..i - 1];
          assert t[i] == t[1..][i - 1];
        }
      }
    }
  }

  /** Every prefix of an accepted trace is accepted. */
  lemma ReplayPrefix(t: seq<Action>, p: Progress, j: nat)
    requires Replay(t, p).Some? && j <= |t|
    ensures Replay(t[..j], p).Some?
  {
    assert t == t[..j] + t[j..];
    ReplayConcat(t[..j], t[j..], p);
  }

  /** Replaying a prefix one action longer takes one more step. */
  lemma ReplayStep(t: seq<Action>, p: Progress, i: nat)
    requires Replay(t, p).Some? && i < |t|
    ensures Replay(t[..i], p).Some? && Replay(t[..i + 1], p).Some?
    ensures Replay(t[..i + 1], p) == Next(Replay(t[..i], p).value, t[i])
  {
    ReplayPrefix(t, p, i);
    ReplayPrefix(t, p, i + 1);
    assert t[..i + 1] == t[..i] + [t[i]];
    ReplayConcat(t[..i], [t[i]], p);
    assert [t[i]][1..] == [];
  }

  /** Where a trace from a settled start stands before action `i`: settled
      at the start, and otherwise where action `i - 1` took it; action `i`
      is accepted there. */
  lemma StandsBefore(t: seq<Action>, i: nat)
    requires Replay(t, Idle).Some? && i < |t|
    ensures Replay(t[..i], Idle).Some? && Next(Replay(t[..i], Idle).value, t[i]).Some?
    ensures i == 0 ==> Replay(t[..i], Idle) == Some(Idle)
    ensures 0 < i ==> Replay(t[..i - 1], Idle).Some?
                      && Next(Replay(t[..i - 1], Idle).value, t[i - 1]) == Replay(t[..i], Idle)
  {
    ReplayStep(t, Idle, i);
    if i == 0 {
      assert t[..0] == [];
    } else {
      ReplayStep(t, Idle, i - 1);
      assert t[..i - 1 + 1] == t[..i];
    }
  }

  /** A publisher sleep at `i` directly follows a failed send that was not a
      message's first. */
  lemma SleepAt(t: seq<Action>, i: nat)
    requires Replay(t, Idle).Some? && i < |t| && t[i].Publish? && t[i].step.Sleep?
    ensures 2 <= i && t[i - 1].Publish? && t[i - 1].step.Send? && !t[i - 1].step.ok && !t[i - 2].Received?
  {
    StandsBefore(t, i);
    assert Replay(t[..i], Idle).value.Backoff?;
    StandsBefore(t, i - 1);
    assert Replay(t[..i - 1], Idle).value.Busy? && Replay(t[..i - 1], Idle).value.sent != 0;
  }

  /** A prefix that stops with a sleep due is not the whole trace, when the
      whole trace does not stop so. */
  lemma BackoffNotLast(t: seq<Action>, j: nat)
    requires Replay(t, Idle).Some? && !Replay(t, Idle).value.Backoff?
    requires j <= |t| && Replay(t[..j], Idle).Some? && Replay(t[..j], Idle).value.Backoff?
    ensures j < |t|
  {
    assert Replay(t[..j], Idle) != Replay(t, Idle);
    assert t[..j] != t;
  }

  /** A failed send at `i` that was not a message's first leaves its sleep
      due. */
  lemma RetryFailedAt(t: seq<Action>, i: nat)
    requires Replay(t, Idle).Some?
    requires 0 < i < |t| && t[i].Publish? && t[i].step.Send? && !t[i].step.ok && !t[i - 1].Received?
    ensures Replay(t[..i + 1], Idle).Some? && Replay(t[..i + 1], Idle).value.Backoff?
  {
    StandsBefore(t, i);
    assert Replay(t[..i], Idle).value.Busy?;
    assert Replay(t[..i], Idle).value.sent != 0;
    ReplayStep(t, Idle, i);
  }

  /** A failed send at `i` that was not a message's first is directly
      followed by its sleep, unless the trace stops with that sleep due. */
  lemma SendAt(t: seq<Action>, i: nat)
    requires Replay(t, Idle).Some? && !Replay(t, Idle).value.Backoff?
    requires 0 < i < |t| && t[i].Publish? && t[i].step.Send? && !t[i].step.ok && !t[i - 1].Received?
    ensures i + 1 < |t| && t[i + 1].Publish? && t[i + 1].step.Sleep?
  {
    RetryFailedAt(t, i);
    BackoffNotLast(t, i + 1);
    StandsBefore(t, i + 1);
    assert t[..i + 1 + 1 - 1] == t[..i + 1];
  }

  /** Under the discipline, from a settled start and not stopped with a sleep
      due: every publisher sleep directly follows a failed send that was not
      a message's first; and every failed send that was not a message's
      first is directly followed by its sleep. */
  lemma SleepsAfterFailedRetries(t: seq<Action>)
    requires Replay(t, Idle).Some? && !Replay(t, Idle).value.Backoff?
    ensures forall i :: 0 <= i < |t| && t[i].Publish? && t[i].step.Sleep? ==>
              && 2 <= i && t[i - 1].Publish? && t[i - 1].step.Send? && !t[i - 1].step.ok
              && !t[i - 2].Received?
    ensures forall i :: 0 < i < |t| && t[i].Publish? && t[i].step.Send? && !t[i].step.ok && !t[i - 1].Received? ==>
              i + 1 < |t| && t[i + 1].Publish? && t[i + 1].step.Sleep?
  {
    forall i | 0 <= i < |t| && t[i].Publish? && t[i].step.Sleep?
      ensures 2 <= i && t[i - 1].Publish? && t[i - 1].step.Send? && !t[i - 1].step.ok && !t[i - 2].Received?
    {
      SleepAt(t, i);
    }
    forall i | 0 < i < |t| && t[i].Publish? && t[i].step.Send? && !t[i].step.ok && !t[i - 1].Received?
      ensures i + 1 < |t| && t[i + 1].Publish? && t[i + 1].step.Sleep?
    {
      SendAt(t, i);
    }
  }

  /** The forwarding discipline spelled out on a worker chain's trace: a
      message read is followed at once by a send of it, unless the trace
      ends there, and every read comes after the previous message settled.
      A publisher sleep comes only right after a failed send that was not
      the message's first, and every such send is followed by its sleep. */
  lemma WorkerSendsWhatItReads(batch: seq<string>, env: Env, frame: nat, res: Resources)
    ensures var t := Worker(batch, env, frame, res).trace;
            && (forall i :: 0 <= i < |t| - 1 && t[i].Received? ==>
                  t[i + 1].Publish? && t[i + 1].step.Send? && t[i + 1].step.rec == Produce(t[i].payload))
            && (forall i :: 0 <= i < |t| && IsRead(t[i]) ==> Replay(t[..i], Idle) == Some(Idle))
    ensures var t := Worker(batch, env, frame, res).trace;
            && (forall i :: 0 <= i < |t| && t[i].Publish? && t[i].step.Sleep? ==>
                  && 2 <= i && t[i - 1].Publish? && t[i - 1].step.Send? && !t[i - 1].step.ok
                  && !t[i - 2].Received?)
            && (forall i :: 0 < i < |t| && t[i].Publish? && t[i].step.Send? && !t[i].step.ok && !t[i - 1].Received? ==>
                  i + 1 < |t| && t[i + 1].Publish? && t[i + 1].step.Sleep?)
  {
    var t := Worker(batch, env, frame, res).trace;
    WorkerForwards(batch, env, frame, res);
    ReceivedThenSent(t, Idle);
    ReadsWhenSettled(t, Idle);
    SleepsAfterFailedRetries(t);
  }

  /** A read loop that skips forwarding a message breaks the discipline. */
  lemma DroppedMessageBreaks(a: Bytes, b: Bytes)
    ensures Replay([Received(a), Received(b)], Idle) == None
  {
    assert [Received(a), Received(b)][1..] == [Received(b)];
  }

  /** Reading one tick and then a prefix of the rest is reading a prefix. */
  lemma {:induction false} ConsumeOne(ticks: seq<Tick>, rest: seq<Tick>)
    requires 0 < |ticks|
    requires Suffix(rest, ticks[1..])
    ensures Suffix(rest, ticks)
    ensures Messages(ticks[..|ticks| - |rest|]) == Messages([ticks[0]]) + Messages(ticks[1..][..|ticks| - 1 - |rest|])
  {
    var k := |ticks| - 1 - |rest|;
    assert ticks[1..][k..] == ticks[k + 1..];
    var pre := ticks[..k + 1];
    assert pre[0] == ticks[0];
    assert pre[1..] == ticks[1..][..k];
    assert [ticks[0]][1..] == [];
  }

  /** How a chain forwards what it reads: every message among the ticks it
      used is received, once and in order; every message received is sent at
      once, each send publishes it unchanged to the order-book topic, and its
      sends, each failed retry send followed by its sleep, go on until the
      sink accepts one or MaxAttempts have been made, before anything else is
      read. Only a run that waits on the sink may end with a message
      unsettled, and then with its next send due; a chain whose last tick was a message
      does not return: it waits on the sink or reads again. */
  predicate ForwardsInOrder(env: Env, r: Run)
  {
    && Suffix(r.rest.ticks, env.ticks)
    && ReceivedPayloads(r.trace) == Messages(env.ticks[..|env.ticks| - |r.rest.ticks|])
    && Replay(r.trace, Idle).Some?
    && (Replay(r.trace, Idle) == Some(Idle) || (r.status == Pending(SinkOracle) && Replay(r.trace, Idle).value.Busy?))
    && (LastUsed(env.ticks, r.rest.ticks).Some? && LastUsed(env.ticks, r.rest.ticks).value.Message? ==>
          r.status == Pending(SinkOracle) || r.status == Pending(TickOracle))
  }

  /** Each message read is published (first send, then the retry loop only on
      failure) before the next read, to the order-book topic, unchanged, at
      most MaxAttempts times, and messages are published in arrival order. */
  lemma {:induction false} WorkerForwards(batch: seq<string>, env: Env, frame: nat, res: Resources)
    decreases |env.ticks|, 3
    ensures ForwardsInOrder(env, Worker(batch, env, frame, res))
  {
    assert env.ticks[..0] == [];
    if |env.setups| == 0 {
      ReplayQuiet([]);
    } else {
      var head := Head(batch, frame);
      match env.setups[0]
      case InitFails =>
        ReplayQuiet([WgDone]);
      case DialFails =>
        ReplayQuiet([ProducerOpened(frame), ProducerClosed(frame), WgDone]);
      case WriteFails =>
        ReplayQuiet(head + Teardown(frame));
      case Ready =>
        ReadyForwards(batch, env, frame, res);
    }
  }

  lemma {:induction false} ReadyForwards(batch: seq<string>, env: Env, frame: nat, res: Resources)
    requires 0 < |env.setups| && env.setups[0].Ready?
    decreases |env.ticks|, 2
    ensures ForwardsInOrder(env, Worker(batch, env, frame, res))
  {
    UnfoldReady(batch, env, frame, res);
    var e := env.(setups := env.setups[1..]);
    var head := Head(batch, frame);
    var loop := ReadLoop(batch, e, frame, Open(res, frame));
    ReadLoopForwards(batch, e, frame, Open(res, frame));
    ReplayQuiet(head);
    ReplayQuiet(Teardown(frame));
    ReplayConcat(head, loop.trace, Idle);
    ReceivedConcat(head, loop.trace);
    if loop.status.Exited? {
      ReplayConcat(head + loop.trace, Teardown(frame), Idle);
      ReceivedConcat(head + loop.trace, Teardown(frame));
    }
  }

  lemma {:induction false} ReadLoopForwards(batch: seq<string>, env: Env, frame: nat, res: Resources)
    decreases |env.ticks|, 1
    ensures ForwardsInOrder(env, ReadLoop(batch, env, frame, res))
  {
    if |env.ticks| == 0 {
      ReplayQuiet([]);
    } else {
      match env.ticks[0]
      case Cancel =>
        ReplayQuiet([CancelObserved(AtRead)]);
        assert env.ticks[..1] == [Cancel];
      case ReadError =>
        ReadErrorForwards(batch, env, frame, res);
      case Message(_) =>
        MessageForwards(batch, env, frame, res);
    }
  }

  lemma {:induction false} ReadErrorForwards(batch: seq<string>, env: Env, frame: nat, res: Resources)
    requires 0 < |env.ticks| && env.ticks[0].ReadError?
    decreases |env.ticks|, 0
    ensures ForwardsInOrder(env, ReadLoop(batch, env, frame, res))
  {
    var e := env.(ticks := env.ticks[1..]);
    UnfoldReadError(batch, env, frame, res);
    var r := Reconnect(batch, e, frame, res);
    ReconnectForwards(batch, e, frame, res);
    ReplayQuiet([ReadFailed]);
    ReplayConcat([ReadFailed], r.trace, Idle);
    ReceivedConcat([ReadFailed], r.trace);
    ConsumeOne(env.ticks, r.rest.ticks);
    LastUsedStep(env.ticks, r.rest.ticks);
  }

  /** The message case of ReadLoopForwards. */
  lemma {:induction false} MessageForwards(batch: seq<string>, env: Env, frame: nat, res: Resources)
    requires 0 < |env.ticks| && env.ticks[0].Message?
    decreases |env.ticks|, 0
    ensures ForwardsInOrder(env, ReadLoop(batch, env, frame, res))
  {
    UnfoldMessage(batch, env, frame, res);
    var msg := env.ticks[0].payload;
    var f := Forward(msg, env.sink);
    var e' := env.(ticks := env.ticks[1..], sink := env.sink[f.used..]);
    var pre := [Received(msg)] + Lift(f.steps);
    ForwardedMessage(msg, env.sink);
    if f.complete {
      var next := ReadLoop(batch, e', frame, res);
      ReadLoopForwards(batch, e', frame, res);
      ReplayConcat(pre, next.trace, Idle);
      ReceivedConcat(pre, next.trace);
      ConsumeOne(env.ticks, next.rest.ticks);
      ReadLoopConsumes(batch, e', frame, res);
      LastUsedStep(env.ticks, next.rest.ticks);
    } else {
      ConsumeOne(env.ticks, e'.ticks);
    }
  }

  lemma {:induction false} ReconnectForwards(batch: seq<string>, env: Env, frame: nat, res: Resources)
    decreases |env.ticks|, 4
    ensures ForwardsInOrder(env, Reconnect(batch, env, frame, res))
  {
    UnfoldReconnect(batch, env, frame, res);
    var p := Pause(ReconnectDelay);
    assert env.ticks[..0] == [];
    if |env.checks| == 0 {
      ReplayQuiet([p]);
    } else if env.checks[0] {
      ReplayQuiet([p, CancelObserved(AtReconnect)]);
    } else {
      var e := env.(checks := env.checks[1..]);
      var added := res.(wg := res.wg + 1);
      var w := Worker(batch, e, frame + 1, added);
      WorkerForwards(batch, e, frame + 1, added);
      ReplayQuiet([p, WgAdd]);
      ReplayConcat([p, WgAdd], w.trace, Idle);
      ReceivedConcat([p, WgAdd], w.trace);
    }
  }

  /* Set-up failures. */

  /** A worker whose producer initialisation, dial or subscription write fails
      just returns: no read, no send, no reconnection, and its one wg.Done. */
  lemma SetupFailureEndsWorker(batch: seq<string>, env: Env, frame: nat, res: Resources)
    requires 0 < |env.setups| && !env.setups[0].Ready?
    ensures var r := Worker(batch, env, frame, res);
            && (env.setups[0].InitFails? ==> r.status == Exited(InitFailed))
            && (env.setups[0].DialFails? ==> r.status == Exited(DialFailed))
            && (env.setups[0].WriteFails? ==> r.status == Exited(SubscribeFailed))
            && Count(r.trace, IsReceived) == 0 && Count(r.trace, IsPublish) == 0
            && Count(r.trace, IsReadFailed) == 0 && Count(r.trace, IsWgAdd) == 0
            && r.rest.ticks == env.ticks && r.rest.sink == env.sink && r.rest.checks == env.checks
            && r.res == res.(wg := res.wg - 1)
  {
    var t := Worker(batch, env, frame, res).trace;
    CountNone(t, IsReceived);
    CountNone(t, IsPublish);
    CountNone(t, IsReadFailed);
    CountNone(t, IsWgAdd);
  }

  /* Nested leases. */

  function Repeat<T>(x: T, n: nat): (xs: seq<T>)
    ensures |xs| == n
  {
    if n == 0 then [] else [x] + Repeat(x, n - 1)
  }

  /** The `count` frames starting at `from`. */
  function Frames(from: nat, count: nat): (fs: set<nat>)
    ensures forall i :: i in fs <==> from <= i < from + count
    ensures |fs| == count
    decreases count
  {
    if count == 0 then {} else {from} + Frames(from + 1, count - 1)
  }

  /** A worker whose set-up succeeds ends as its read loop does, and while
      pending holds what the read loop holds. */
  lemma ReadyWorkerPending(batch: seq<string>, env: Env, frame: nat, res: Resources)
    requires 0 < |env.setups| && env.setups[0].Ready?
    requires ReadLoop(batch, env.(setups := env.setups[1..]), frame, Open(res, frame)).status.Pending?
    ensures Worker(batch, env, frame, res).status
         == ReadLoop(batch, env.(setups := env.setups[1..]), frame, Open(res, frame)).status
    ensures Worker(batch, env, frame, res).res
         == ReadLoop(batch, env.(setups := env.setups[1..]), frame, Open(res, frame)).res
  {
  }

  /** A read error whose reconnection finds the context not cancelled hands
      over to a reconnected worker one frame deeper, with one more wg.Add. */
  lemma ReadErrorNests(batch: seq<string>, env: Env, frame: nat, res: Resources)
    requires 0 < |env.ticks| && env.ticks[0].ReadError?
    requires 0 < |env.checks| && !env.checks[0]
    ensures var w := Worker(batch, env.(ticks := env.ticks[1..], checks := env.checks[1..]), frame + 1, res.(wg := res.wg + 1));
            ReadLoop(batch, env, frame, res).status == w.status && ReadLoop(batch, env, frame, res).res == w.res
  {
  }

  /** One level of nesting: a worker that sets up, reads an error and
      reconnects is pending with whatever the reconnected worker holds, as
      long as that one is pending. */
  lemma NestedStep(batch: seq<string>, env: Env, frame: nat, res: Resources)
    requires 0 < |env.setups| && env.setups[0].Ready?
    requires 0 < |env.ticks| && env.ticks[0].ReadError?
    requires 0 < |env.checks| && !env.checks[0]
    requires Worker(batch, Env(env.setups[1..], env.ticks[1..], env.sink, env.checks[1..]), frame + 1,
                    Resources(res.wg + 1, res.conns + {frame}, res.producers + {frame})).status.Pending?
    ensures var inner := Worker(batch, Env(env.setups[1..], env.ticks[1..], env.sink, env.checks[1..]), frame + 1,
                                Resources(res.wg + 1, res.conns + {frame}, res.producers + {frame}));
            Worker(batch, env, frame, res).status == inner.status && Worker(batch, env, frame, res).res == inner.res
  {
    var e := env.(setups := env.setups[1..]);
    ReadErrorNests(batch, e, frame, Open(res, frame));
    ReadyWorkerPending(batch, env, frame, res);
  }

  /** As written, a failed worker keeps its connection and producer open
      until the reconnected worker nested in it returns: after k read errors,
      each followed by a reconnection that finds the context not cancelled,
      k + 1 connections and producers are open at once, all for the same
      batch. */
  lemma {:induction false} NestedLeases(batch: seq<string>, k: nat, sink: seq<bool>, frame: nat, res: Resources)
    requires Below(res, frame)
    ensures var r := Worker(batch, Env(Repeat(Ready, k + 1), Repeat(ReadError, k), sink, Repeat(false, k)), frame, res);
            && r.status == Pending(TickOracle)
            && (forall i :: i in r.res.conns <==> i in res.conns || frame <= i <= frame + k)
            && (forall i :: i in r.res.producers <==> i in res.producers || frame <= i <= frame + k)
            && r.res.wg == res.wg + k
  {
    var env := Env(Repeat(Ready, k + 1), Repeat(ReadError, k), sink, Repeat(false, k));
    if k == 0 {
      assert ReadLoop(batch, env.(setups := env.setups[1..]), frame, Open(res, frame)).status == Pending(TickOracle);
      ReadyWorkerPending(batch, env, frame, res);
    } else {
      var added := Resources(res.wg + 1, res.conns + {frame}, res.producers + {frame});
      var inner := Env(Repeat(Ready, k), Repeat(ReadError, k - 1), sink, Repeat(false, k - 1));
      assert inner == Env(env.setups[1..], env.ticks[1..], env.sink, env.checks[1..]);
      NestedLeases(batch, k - 1, sink, frame + 1, added);
      NestedStep(batch, env, frame, res);
    }
  }

  /** The worker main starts, after k read errors each followed by a
      reconnection that finds the context not cancelled, holds k + 1
      connections and k + 1 producers at once and owes k + 1 wg.Done calls. */
  lemma OpenLeasesAfterReconnects(batch: seq<string>, k: nat, sink: seq<bool>)
    ensures var r := Worker(batch, Env(Repeat(Ready, k + 1), Repeat(ReadError, k), sink, Repeat(false, k)), 0, Resources(1, {}, {}));
            && r.status.Pending?
            && |r.res.conns| == k + 1 && |r.res.producers| == k + 1
            && r.res.wg == k + 1
  {
    var r := Worker(batch, Env(Repeat(Ready, k + 1), Repeat(ReadError, k), sink, Repeat(false, k)), 0, Resources(1, {}, {}));
    NestedLeases(batch, k, sink, 0, Resources(1, {}, {}));
    var fs := Frames(0, k + 1);
    assert r.res.conns == fs;
    assert r.res.producers == fs;
  }
}
